=== FILE: README.md ===
# Geometry render pipeline, modelled in Dafny

`Geometry.py` describes 2-D polygons and depth-indexed transforms, and
renders them as a stack of boolean images: volume data, one image per
depth index. This project models the core of that pipeline with exact real
coordinates and integer pixels:

- `Shapes`: polygons, their centroid, and `+` (translation) and `*`
  (scaling).
- `Transforms`: transforms as stacks of 2x2 matrices. Each stack has a pivot
  that is either the shape's own centre or a fixed point. Rotation sets only
  that pivot. Dilation builds its whole stack.
- `Compositor`: `Animation.render_shapes`. It stably moves centre-relative
  transforms to the front, applies the first transform to the polygon, and
  applies every later one frame by frame. Later centre-relative transforms
  reuse the polygon's original centre.
- `Raster`: normalisation of points to pixels. It also covers the Python
  semantics the two rasterisers rely on:
  - `int()` truncation.
  - Negative row indexing `[-y]`.
  - Clamped slice bounds.
- `Filled`: `render_points_as_image`. It models XOR toggles of row prefixes
  along every edge, followed by the corner pass.
- `Wires`: `render_points_as_wires`. It models single-pixel writes for steep
  edges and two-pixel slice writes for shallow ones, drawn over an optional
  canvas.
- `Volume`: `render_volume_data`. Wireframe ("fast") mode draws each shape's
  frames into the volume, layer by layer. The first shape fixes the depth, so
  a later shape with more frames raises `IndexError`. Whether fast mode
  succeeds therefore depends on the dictionary's iteration order. Filled mode
  ORs one filled volume per shape, with numpy's broadcasting along the depth
  axis.

Python and numpy exceptions become `Result` values (`IndexError`,
`ZeroDivisionError`, and numpy's `ValueError` for arrays whose shapes do not
line up).
Where the source needs an input it would otherwise reject with an exception,
that need is stated as a precondition and listed under "Left out".

Where the documentation and the code disagree, the model follows the code:

- `Dilation` does not end at the requested factor when that factor is
  above 1 (see "Findings").
- In filled mode a vertical edge gets an infinite slope. That slope is truthy,
  so the edge still toggles one row prefix per row, at its own column.
- In wireframe mode a steep edge sets a single pixel per row. There is no
  neighbourhood around it; only shallow edges write two pixels per step.

## Model

| member | source | states |
|---|---|---|
| Shapes.Center | Geometry.py:29-32 | the centroid times the number of points is the sum of the points, and a single point is its own centroid |
| Shapes.MakePolygon | Geometry.py:25-27 | building a polygon keeps the points and stores their centroid as its center |
| Shapes.Translate | Geometry.py:40-42 | adding a vector moves every vertex by it, keeps the vertex count, and the recomputed centroid is the old centroid moved by the same vector |
| Shapes.Scale | Geometry.py:44-46 | multiplying by a scalar scales every vertex, keeps the vertex count, and the recomputed centroid is the old centroid scaled by the same factor |
| Shapes.CenterTranslated | Geometry.py:29-32 | the centroid computed by `find_center` commutes with translation |
| Shapes.CenterScaled | Geometry.py:29-32 | the centroid computed by `find_center` commutes with scaling by a constant |
| Transforms.Rotation | Geometry.py:85-93 | a rotation is pivot-less exactly when no centre is given; any given centre, the origin included, becomes its fixed pivot; the matrix stack is kept as supplied |
| Transforms.Dilation | Geometry.py:103-111 | depth 0 raises ZeroDivisionError; otherwise the transform has no pivot and `depth + 1` diagonal matrices (none for negative depth); the first is the identity; the last scales by the factor when the factor is at most 1, and by 1 + factor above 1 |
| Transforms.DilationMonotone | Geometry.py:107-111 | along the stack the scale never increases for a factor up to 1 and strictly increases for a factor above 1 |
| Transforms.DilationIntended | Geometry.py:107-108 | corrected dilation: the same stack shape, starting at the identity and ending at exactly the requested factor for every factor |
| Transforms.DilationOvershoots | Geometry.py:107-111 | the code and the corrected dilation agree for every factor up to 1; above 1 the code's final scale exceeds the requested one by exactly 1 |
| Compositor.Partition | Geometry.py:141-144 | the reordered list is a permutation of the transforms, holds every centre-relative one before every fixed-pivot one, and keeps the relative order inside each group |
| Compositor.PartitionSorted | Geometry.py:141-144 | a list that already has the centre-relative transforms first is left unchanged (the reordering is idempotent) |
| Compositor.Affine | Geometry.py:151-168 | the map "subtract pivot, multiply, add pivot back" fixes the pivot, and with the identity matrix it fixes every point |
| Compositor.ApplyFirst | Geometry.py:150-157 | an empty stack raises ValueError in `np.dot`; otherwise the first transform yields one frame per matrix, each holding as many points as the polygon; vertices at the pivot stay put, and identity matrices reproduce the polygon |
| Compositor.ApplyNext | Geometry.py:159-168 | a later transform raises IndexError exactly when its stack is longer than the frames so far; otherwise it yields one frame per matrix, keeps each frame's point count, fixes points at the pivot, and leaves identity frames unchanged |
| Compositor.ApplyRest | Geometry.py:159-168 | the later transforms succeed exactly when every stack fits the frames produced before it; the frame count is then the last stack's length, and equal point counts per frame are kept; a failure is always IndexError |
| Compositor.RenderShape | Geometry.py:137-170 | a shape with no transforms raises IndexError, and one whose reordered first stack is empty raises ValueError; otherwise rendering succeeds exactly when the later stacks fit, raises IndexError when they do not, and on success gives the last stack's number of frames with the polygon's point count in each |
| Compositor.RenderShapes | Geometry.py:133-172 | rendering the animation fails exactly when some shape fails; otherwise it yields one frame list per shape, each the shape's own rendering |
| Compositor.CenterAffine | Geometry.py:151-168 | the centroid of an affinely mapped frame is the affine image of the centroid |
| Compositor.FirstKeepsCentroid | Geometry.py:154-157 | a first centre-relative transform leaves the centroid of every frame at the polygon's centre |
| Compositor.NextKeepsCentroid | Geometry.py:165-168 | a later centre-relative transform about a frame's centroid keeps every frame's centroid there |
| Compositor.OriginalCenterSuffices | Geometry.py:139-168 | applying later centre-relative transforms about the polygon's original centre gives the same result as recomputing each frame's centroid before every transform |
| Compositor.IdentityKeepsShape | Geometry.py:150-168 | when every matrix of every transform is the identity, each rendered frame is the original polygon |
| Raster.Trunc | Geometry.py:216-220 | `int()` truncates toward zero: the result is the floor for non-negative values and the ceiling for negative ones |
| Raster.ToPixel | Geometry.py:187-201 | a coordinate maps to the pixel whose cell on the `resolution`-wide grid over `[-bound, bound]` contains it: the floor of `(v + bound) * resolution / (2 * bound)` |
| Raster.ToPixelRange | Geometry.py:187-201 | a coordinate within `[-bound, bound]` normalises to a pixel in `[0, resolution]`, and below `resolution` when strictly less than the bound |
| Raster.ToPixelMonotone | Geometry.py:194-201 | normalisation preserves the order of coordinates |
| Raster.Normalise | Geometry.py:187-201 | the closed ring has one more pixel than there are points, ends where it starts, maps each point on its own, and stays in the grid when the points stay within the bounds |
| Raster.RowOf | Geometry.py:223 | indexing a row with `-y` selects row `(resolution - y) mod resolution`, always inside the image |
| Raster.RowOfCollision | Geometry.py:223 | two different heights select the same row only when they are 0 and the resolution |
| Raster.SliceBound | Geometry.py:223 | a slice bound is clamped to `[0, n]` and kept when already inside |
| Raster.Or | Geometry.py:352 | the element-wise OR of two images of one size is true exactly where either is |
| Raster.ScanBetween | Geometry.py:211-220 | every scanline point of an edge lies between the edge's endpoints in both coordinates and never at the far endpoint's height (heights 0 and the resolution still share row 0, see Raster.RowOfCollision) |
| Filled.ApplyToggle | Geometry.py:223 | toggling a row prefix flips exactly the pixels of that prefix and no others |
| Filled.ToggleInvolution | Geometry.py:223 | toggling the same prefix twice restores the image |
| Filled.TogglesParity | Geometry.py:203-223 | after a sequence of toggles, a pixel is flipped exactly when an odd number of the toggles cover it |
| Filled.ScanToggles | Geometry.py:203-223 | the scan produces one toggle per unit of vertical travel around the closed ring, each on a row of the image |
| Filled.EdgeToggles | Geometry.py:203-223 | an edge toggles one prefix per row it spans: none for a horizontal edge, each prefix reaching a column between the edge's endpoints, no row toggled twice |
| Filled.CornerPass | Geometry.py:225-229 | the corner pass changes a pixel only if it lies in a vertex's row, left of that vertex's column |
| Filled.CornerKeepsClearRows | Geometry.py:225-229 | the corner pass leaves every row whose first pixel is clear unchanged |
| Filled.CornerKeepsOtherRows | Geometry.py:225-229 | the corner pass leaves every row that holds no vertex unchanged |
| Filled.CornerClearsVertexRows | Geometry.py:225-229 | after the corner pass, the first pixel of a vertex's row is clear whenever that vertex lies right of column 0 |
| Filled.RenderFilled | Geometry.py:185-231 | the filled image is a resolution-by-resolution image |
| Filled.FilledParity | Geometry.py:185-231 | on a row holding no vertex, a pixel of the filled image is set exactly when an odd number of edge toggles cover it (the even-odd fill) |
| Wires.ApplyWrite | Geometry.py:288 | a write sets exactly the pixels it hits and never clears one |
| Wires.WritesSetOnly | Geometry.py:267-307 | after a sequence of writes, a pixel is set exactly when it was set before or some write hits it |
| Wires.StepBetween | Geometry.py:289-306 | every x-step point of a shallow edge lies between the edge's endpoints in both coordinates |
| Wires.EdgeWrites | Geometry.py:267-307 | a steep edge writes one pixel per row it spans, no row twice, at a column between its endpoints; any other edge writes one two-pixel slice `[x-1:x+1]` per column step, whose right-hand column x lies between its endpoints |
| Wires.DotWrites | Geometry.py:276-288 | a steep edge writes one single pixel per row it spans, no row twice, each at a column between the edge's endpoints |
| Wires.WireWrites | Geometry.py:267-307 | walking the closed ring produces one write per unit of each edge's longer extent (its horizontal or vertical distance, whichever is larger), each inside the image |
| Wires.SpanColumns | Geometry.py:307 | the slice `[x-1:x+1]` covers columns x-1 and x, writes nothing at x = 0 on a grid at least two wide (at resolution 1 `[-1:1]` writes column 0), and only the last column at x = resolution |
| Wires.RenderWires | Geometry.py:248-309 | the wireframe is a resolution-by-resolution image |
| Wires.WiresOverlay | Geometry.py:248-309 | drawing on a canvas never clears a pixel, and equals the canvas ORed with the same wireframe drawn on a blank image |
| Volume.BlankVolume | Geometry.py:332 | the starting volume has the requested number of resolution-by-resolution layers, with every voxel clear |
| Volume.DrawShapeWires | Geometry.py:339-341 | drawing one shape's frames fails with IndexError exactly when it has more frames than the volume has layers; otherwise the depth is kept and the layers past the shape's last frame are untouched |
| Volume.FastVolume | Geometry.py:334-341 | the fast-mode loop fails with IndexError exactly when some shape has more frames than the volume has layers, and otherwise keeps the volume's depth |
| Volume.FastIsUnion | Geometry.py:334-341 | drawing every shape's wireframes into the volume sets a voxel exactly when it was set or some shape that has a frame at that depth sets it in that frame's wireframe |
| Volume.Broadcast | Geometry.py:352 | numpy's rule for the depth axis of `np.logical_or`: two depths combine exactly when they are equal or one of them is 1, and the result has the depth that is not 1 |
| Volume.OrBroadcast | Geometry.py:352 | `np.logical_or` of two volumes has the broadcast depth, and each voxel is the OR of the matching voxels, a one-layer volume supplying its only layer at every depth |
| Volume.FilledShape | Geometry.py:346-350 | one shape filled in isolation has one image per frame, and a voxel is set exactly when that frame's own fill sets it |
| Volume.FilledVolume | Geometry.py:343-352 | the filled-mode loop fails with ValueError exactly when the shapes and the volume cannot be broadcast together (a shape with no frames, or two frame counts other than one that differ); otherwise each shape has one frame or as many as the result has layers |
| Volume.FilledIsUnion | Geometry.py:343-352 | ORing the filled volumes sets a voxel exactly when the volume's broadcast layer had it set or some shape's fill of its frame at that depth, or of its only frame, sets it |
| Volume.RenderVolumeData | Geometry.py:329-359 | no shapes raises IndexError; fast mode succeeds exactly when no shape has more frames than the first, filled mode exactly when the frame counts broadcast; a finished volume is as deep as the longest shape |
| Volume.VolumeIsUnion | Geometry.py:332-352 | in both modes a voxel is set exactly when some shape's raster at that depth sets it: the wireframe of its frame at that depth in fast mode, the fill of that frame or of its only frame in filled mode |
| Volume.ShapeOrderIrrelevant | Geometry.py:332-352 | reordering the shapes (the source iterates a dictionary) never changes a volume that renders, and in filled mode never changes whether it renders |

## Left out

- `n_Sided_Polygon`, `Square`, `Circle` (Geometry.py:48-73) and the rotation
  matrices of `Rotation` (Geometry.py:86-88): they need `cos` and `sin`.
  `Transforms.Rotation` takes its matrix stack as a parameter.
- Transforms.Rotation has no depth parameter. In the source, depth 0 raises
  `ZeroDivisionError` at `theta/depth` (Geometry.py:87), because `theta` is a
  Python float there. A supplied stack cannot express that case, so the model
  leaves it out.
- `write_to_scad` (Geometry.py:361-384): it exports through the SolidPython
  library and writes a file.
- `print`, the commented-out OpenCV display, `__str__`, `__repr__` and the
  `__main__` demo: these are output only.
- `Animation.__init__` and `add_shape`: the animation is modelled as a
  sequence of (polygon, transforms) pairs. The source keeps a dictionary keyed
  by object identity. `Volume.ShapeOrderIrrelevant` shows that its iteration
  order does not change a volume that renders. In fast mode the order
  decides whether the volume renders at all.
- The lazy call to `render_shapes` inside `render_volume_data` (Geometry.py:329-330):
  `Volume.RenderVolumeData` takes the rendered frames as input.
- Floating point: coordinates are exact reals, so rounding in `np.floor` of
  a quotient and in the slope computations is not modelled.
- Shapes.Translate and Shapes.Scale require a non-empty point list. With no
  points, `find_center` divides by zero when the polygon is built.
- Raster.Normalise and the rasterisers require at least one point, a positive
  resolution and a positive bound. With no points `points[0]` raises
  `IndexError`. A zero resolution raises `ZeroDivisionError` at
  `bounds[1] * 2.0 / resolution`. A zero bound raises nothing there, since
  numpy divides the points by 0.0 and gets inf or nan. The source then fails
  at `int(np.abs(...))` (Geometry.py:212, 278, 291) with `ValueError` or
  `OverflowError`. A negative
  bound raises nothing in the source: it mirrors the image. It is left out
  because the docstrings define the bounds as the top-right corner of the
  drawing square, so they are positive. Only `bounds[1]` is read, as in the
  source.
- Filled.RenderFilled, Wires.RenderWires and Volume.RenderVolumeData require
  every point to be within the bounds. Outside them the source raises
  `IndexError` or writes wrapped rows.
- Wires.EdgeWrites, and with it Wires.RenderWires, requires every x strictly
  below the bound, so no endpoint sits in column `resolution`. A steep edge
  there raises `IndexError` in the source, while a shallow edge's clamped
  slice would accept it. That column is not modelled.
- Filled.RenderFilled states only the image's size. The pixel-level result is
  characterised by Filled.FilledParity on rows holding no vertex, and by the
  corner-pass lemmas on vertex rows.
- Wires.RenderWires states only the image's size. Its pixels are
  characterised by Wires.WiresOverlay together with Wires.WritesSetOnly and
  Wires.EdgeWrites.
- Volume.RenderVolumeData states when the volume renders and how deep it
  is. Its voxels are characterised by Volume.VolumeIsUnion.
- Volume.FilledVolume treats a shape with no frames as a `ValueError`. That
  is what numpy raises for a resolution above 1. At resolution 1 numpy
  instead broadcasts the empty list into an array with no columns, which is
  not a volume. A shape with no frames only arises from the empty later
  stack described below.
- Float-valued indices (`output_image[-point[1]]`), which old numpy versions
  accepted, are modelled as the integers they hold.
- Compositor.ApplyNext: a later transform with an empty stack (negative
  depth) yields no frames here. In the source, numpy broadcasts the empty
  list against the centre and produces a malformed 2-by-0 array.
- Shapes.CenterScaled assumes float-typed coordinates. The source is Python
  2, so for a point list of integers `find_center` floor-divides. For example,
  `Polygon([(0,0),(1,0),(0,1)]).center` is `[0,0]` there, not (1/3, 1/3).
  For such input the floored centroid of scaled points need not be the
  scaled floored centroid.
- Shapes.Translate, and every member that uses `Shapes.Center`, makes the
  same assumption. Integer-typed points get a floored centroid in the source
  and an exact one here.

## Findings

| source | as written | input that shows it | evidently intended | confidence | as-written member | corrected member |
|---|---|---|---|---|---|---|
| Geometry.py:107-108 | for a factor above 1 the i-th scale is `1 + i*factor/depth`, so the last one is `1 + factor` | `Dilation(2, 500)` ends at scale 3.0, not 2.0 | `1 + i*(factor-1)/depth`, ending at the requested factor, as the factor-below-1 branch does | medium, not executed | Transforms.DilationOvershoots | Transforms.DilationIntended |

The compositor takes transforms as values and never builds a dilation
itself, so `Transforms.DilationIntended` plugs into `Compositor.RenderShape`
wherever `Transforms.Dilation` does.

=== FILE: compositor.dfy ===
/** Applying a shape's transform list at every depth index
    (`Animation.render_shapes` in Geometry.py). */
module Compositor {
  import opened Results
  import opened Shapes
  import opened Transforms

  /** One point set per depth index. */
  type Frames = seq<seq<Point>>

  predicate Centred(t: Transform) { t.pivot.AboutCenter? }

  /** The pivot-less transforms, in list order. */
  function CentreRelative(ts: seq<Transform>): seq<Transform>
  {
    if |ts| == 0 then []
    else (if Centred(ts[0]) then [ts[0]] else []) + CentreRelative(ts[1..])
  }

  /** The fixed-pivot transforms, in list order. */
  function FixedPivot(ts: seq<Transform>): seq<Transform>
  {
    if |ts| == 0 then []
    else (if Centred(ts[0]) then [] else [ts[0]]) + FixedPivot(ts[1..])
  }

  /** Every pivot-less transform comes before every fixed-pivot one. */
  predicate CentredFirst(ts: seq<Transform>)
  {
    forall i, j :: 0 <= i < j < |ts| && Centred(ts[j]) ==> Centred(ts[i])
  }

  lemma {:induction false} SplitPermutes(ts: seq<Transform>)
    ensures multiset(CentreRelative(ts)) + multiset(FixedPivot(ts)) == multiset(ts)
  {
    if |ts| > 0 {
      SplitPermutes(ts[1..]);
      assert ts == [ts[0]] + ts[1..];
    }
  }

  lemma {:induction false} SplitKinds(ts: seq<Transform>)
    ensures forall i :: 0 <= i < |CentreRelative(ts)| ==> Centred(CentreRelative(ts)[i])
    ensures forall i :: 0 <= i < |FixedPivot(ts)| ==> !Centred(FixedPivot(ts)[i])
  {
    if |ts| > 0 {
      SplitKinds(ts[1..]);
    }
  }

  lemma {:induction false} SplitAppend(a: seq<Transform>, b: seq<Transform>)
    ensures CentreRelative(a + b) == CentreRelative(a) + CentreRelative(b)
    ensures FixedPivot(a + b) == FixedPivot(a) + FixedPivot(b)
  {
    if |a| > 0 {
      assert (a + b)[1..] == a[1..] + b;
      SplitAppend(a[1..], b);
    } else {
      assert a + b == b;
    }
  }

  /** Selecting from a list that holds only transforms of one kind. */
  lemma {:induction false} SplitUniform(ts: seq<Transform>)
    ensures (forall i :: 0 <= i < |ts| ==> Centred(ts[i])) ==> CentreRelative(ts) == ts && FixedPivot(ts) == []
    ensures (forall i :: 0 <= i < |ts| ==> !Centred(ts[i])) ==> CentreRelative(ts) == [] && FixedPivot(ts) == ts
  {
    if |ts| > 0 {
      SplitUniform(ts[1..]);
      assert ts == [ts[0]] + ts[1..];
    }
  }

  /** The reordering at Geometry.py:141-144: a stable partition putting the
      pivot-less transforms first. The result is a permutation of the input,
      every pivot-less transform precedes every fixed-pivot one, and each
      kind keeps its original relative order. */
  function Partition(ts: seq<Transform>): (r: seq<Transform>)
    ensures |r| == |ts|
    ensures multiset(r) == multiset(ts)
    ensures CentredFirst(r)
    ensures CentreRelative(r) == CentreRelative(ts)
    ensures FixedPivot(r) == FixedPivot(ts)
  {
    var c := CentreRelative(ts);
    var f := FixedPivot(ts);
    SplitPermutes(ts);
    SplitKinds(ts);
    SplitAppend(c, f);
    SplitUniform(c);
    SplitUniform(f);
    assert |multiset(c + f)| == |multiset(ts)|;
    c + f
  }

  /** A list already ordered pivot-less-first is left as it is. */
  lemma PartitionSorted(ts: seq<Transform>)
    requires CentredFirst(ts)
    ensures Partition(ts) == ts
  {
    SortedSplit(ts);
  }

  lemma {:induction false} SortedSplit(ts: seq<Transform>)
    requires CentredFirst(ts)
    ensures CentreRelative(ts) + FixedPivot(ts) == ts
  {
    if |ts| > 0 {
      var tail := ts[1..];
      var c := CentreRelative(tail);
      var f := FixedPivot(tail);
      assert c + f == tail by {
        SortedTail(ts);
        SortedSplit(tail);
      }
      assert [ts[0]] + tail == ts;
      if Centred(ts[0]) {
        assert CentreRelative(ts) == [ts[0]] + c;
        assert FixedPivot(ts) == f;
        AppendAssoc([ts[0]], c, f);
      } else {
        assert c == [] by {
          SortedTail(ts);
          SplitUniform(tail);
        }
        assert CentreRelative(ts) == [];
        assert FixedPivot(ts) == [ts[0]] + f;
      }
    }
  }

  lemma AppendAssoc<T>(a: seq<T>, b: seq<T>, c: seq<T>)
    ensures (a + b) + c == a + (b + c)
  {
  }

  /** The tail of a pivot-less-first list is pivot-less-first, and holds no
      pivot-less transform at all when the head has a fixed pivot. */
  lemma SortedTail(ts: seq<Transform>)
    requires CentredFirst(ts) && |ts| > 0
    ensures CentredFirst(ts[1..])
    ensures !Centred(ts[0]) ==> forall i :: 0 <= i < |ts[1..]| ==> !Centred(ts[1..][i])
  {
    var tail := ts[1..];
    forall i, j | 0 <= i < j < |tail| && Centred(tail[j])
      ensures Centred(tail[i])
    {
      assert tail[i] == ts[i + 1] && tail[j] == ts[j + 1];
    }
    if !Centred(ts[0]) {
      forall i | 0 <= i < |tail|
        ensures !Centred(tail[i])
      {
        assert tail[i] == ts[i + 1];
      }
    }
  }

  /** `p ↦ M·(p − c) + c`: the step applied to each point about pivot `c`. */
  function Affine(m: Matrix, c: Point, p: Point): (q: Point)
    ensures p == c ==> q == c
    ensures m == Identity ==> q == p
  {
    Plus(Apply(m, Minus(p, c)), c)
  }

  function MapAffine(m: Matrix, c: Point, pts: seq<Point>): (r: seq<Point>)
    ensures |r| == |pts|
  {
    seq(|pts|, k requires 0 <= k < |pts| => Affine(m, c, pts[k]))
  }

  /** The pivot a transform uses: its fixed pivot, or the center the shape
      had when it was built. */
  function PivotFor(t: Transform, centre: Point): Point
  {
    match t.pivot
    case AboutCenter => centre
    case AboutPoint(q) => q
  }

  /** Every point set in `frames` has `n` points. */
  predicate Uniform(frames: Frames, n: nat)
  {
    forall i :: 0 <= i < |frames| ==> |frames[i]| == n
  }

  /** The first transform (Geometry.py:150-157): one copy of the shape per
      matrix of the stack, the `i`-th moved by matrix `i` about the pivot.
      `np.dot` of an empty stack with the 2-by-n point array raises
      ValueError, since their inner dimensions differ. */
  function ApplyFirst(t: Transform, shape: Polygon): (r: Result<Frames>)
    ensures r.Err? <==> |t.mats| == 0
    ensures r.Err? ==> r.error == ValueError
    ensures r.Ok? ==> |r.value| == |t.mats|
    ensures r.Ok? ==> Uniform(r.value, |shape.points|)
    ensures r.Ok? ==> (forall i, k :: 0 <= i < |r.value| && 0 <= k < |shape.points| && shape.points[k] == PivotFor(t, shape.center)
                         ==> r.value[i][k] == shape.points[k])
    ensures r.Ok? ==> forall i :: 0 <= i < |r.value| && t.mats[i] == Identity ==> r.value[i] == shape.points
  {
    if |t.mats| == 0 then Err(ValueError)
    else
      var c := PivotFor(t, shape.center);
      Ok(seq(|t.mats|, i requires 0 <= i < |t.mats| => MapAffine(t.mats[i], c, shape.points)))
  }

  /** A later transform (Geometry.py:160-168): frame `i` is moved by matrix `i`.
      The list comprehension runs over the transform's own stack, so a longer
      stack than there are frames raises IndexError and a shorter one drops
      the trailing frames. */
  function ApplyNext(t: Transform, centre: Point, frames: Frames): (r: Result<Frames>)
    ensures r.Err? <==> |t.mats| > |frames|
    ensures r.Err? ==> r.error == IndexError
    ensures r.Ok? ==> |r.value| == |t.mats|
    ensures r.Ok? ==> forall i :: 0 <= i < |r.value| ==> |r.value[i]| == |frames[i]|
    ensures r.Ok? ==> (forall i, k :: 0 <= i < |r.value| && 0 <= k < |frames[i]| && frames[i][k] == PivotFor(t, centre)
                         ==> r.value[i][k] == frames[i][k])
    ensures r.Ok? ==> forall i :: 0 <= i < |r.value| && t.mats[i] == Identity ==> r.value[i] == frames[i]
  {
    if |t.mats| > |frames| then Err(IndexError)
    else
      var c := PivotFor(t, centre);
      Ok(seq(|t.mats|, i requires 0 <= i < |t.mats| => MapAffine(t.mats[i], c, frames[i])))
  }

  /** The number of frames a transform at position `j` receives: the input's
      frame count for the first, the previous stack's length afterwards. */
  function Incoming(n: nat, ts: seq<Transform>, j: nat): nat
    requires j < |ts|
  {
    if j == 0 then n else |ts[j - 1].mats|
  }

  /** No stack is longer than the frames it is applied to. */
  predicate StacksFit(n: nat, ts: seq<Transform>)
  {
    forall j :: 0 <= j < |ts| ==> |ts[j].mats| <= Incoming(n, ts, j)
  }

  lemma StacksFitTail(n: nat, ts: seq<Transform>)
    requires |ts| > 0
    ensures StacksFit(n, ts) <==> |ts[0].mats| <= n && StacksFit(|ts[0].mats|, ts[1..])
  {
    if |ts[0].mats| <= n && StacksFit(|ts[0].mats|, ts[1..]) {
      forall j | 0 <= j < |ts|
        ensures |ts[j].mats| <= Incoming(n, ts, j)
      {
        if j > 0 {
          assert Incoming(|ts[0].mats|, ts[1..], j - 1) == Incoming(n, ts, j);
        }
      }
    }
    if StacksFit(n, ts) {
      forall j | 0 <= j < |ts[1..]|
        ensures |ts[1..][j].mats| <= Incoming(|ts[0].mats|, ts[1..], j)
      {
        assert Incoming(n, ts, j + 1) == Incoming(|ts[0].mats|, ts[1..], j);
      }
    }
  }

  /** The later transforms of the list, in order, all about `centre` when
      pivot-less. Succeeds exactly when every stack fits the frames it gets. */
  function ApplyRest(ts: seq<Transform>, centre: Point, frames: Frames): (r: Result<Frames>)
    decreases |ts|
    ensures r.Ok? <==> StacksFit(|frames|, ts)
    ensures r.Err? ==> r.error == IndexError
    ensures r.Ok? ==> |r.value| == if |ts| == 0 then |frames| else |ts[|ts| - 1].mats|
    ensures r.Ok? ==> forall n: nat :: Uniform(frames, n) ==> Uniform(r.value, n)
  {
    if |ts| == 0 then Ok(frames)
    else
      StacksFitTail(|frames|, ts);
      match ApplyNext(ts[0], centre, frames)
      case Err(e) => Err(e)
      case Ok(next) =>
        var r := ApplyRest(ts[1..], centre, next);
        assert |ts| > 1 ==> ts[1..][|ts[1..]| - 1] == ts[|ts| - 1];
        r
  }

  /** The whole list for one shape (Geometry.py:141-168): partition, apply the
      first transform to the shape, then the rest frame by frame. An empty
      list raises IndexError at `transformations[0]`, and an empty first
      stack raises ValueError in `np.dot`. */
  function RenderShape(shape: Polygon, ts: seq<Transform>): (r: Result<Frames>)
    ensures |ts| == 0 ==> r == Err(IndexError)
    ensures |ts| > 0 && |Partition(ts)[0].mats| == 0 ==> r == Err(ValueError)
    ensures |ts| > 0 ==> (r.Ok? <==> |Partition(ts)[0].mats| > 0 && StacksFit(|Partition(ts)[0].mats|, Partition(ts)[1..]))
    ensures |ts| > 0 && |Partition(ts)[0].mats| > 0 && r.Err? ==> r.error == IndexError
    ensures r.Ok? ==> |r.value| == |Partition(ts)[|ts| - 1].mats|
    ensures r.Ok? ==> Uniform(r.value, |shape.points|)
  {
    if |ts| == 0 then Err(IndexError)
    else
      var order := Partition(ts);
      match ApplyFirst(order[0], shape)
      case Err(e) => Err(e)
      case Ok(first) =>
        var r := ApplyRest(order[1..], shape.center, first);
        assert |ts| > 1 ==> order[1..][|order[1..]| - 1] == order[|ts| - 1];
        r
  }

  /** One entry of the animation: a shape and its transform list. */
  function RenderEntry(e: (Polygon, seq<Transform>)): Result<Frames>
  {
    RenderShape(e.0, e.1)
  }

  /** The per-shape results gathered in order: the first error, if any,
      otherwise every value. */
  function Collect<T>(rs: seq<Result<T>>): (r: Result<seq<T>>)
    ensures r.Ok? <==> forall k :: 0 <= k < |rs| ==> rs[k].Ok?
    ensures r.Ok? ==> |r.value| == |rs|
    ensures r.Ok? ==> forall k :: 0 <= k < |rs| ==> r.value[k] == rs[k].value
  {
    if |rs| == 0 then Ok([])
    else if rs[0].Err? then Err(rs[0].error)
    else
      var tail := Collect(rs[1..]);
      if tail.Err? then
        assert exists k :: 0 <= k < |rs[1..]| && rs[1..][k].Err?;
        Err(tail.error)
      else
        Ok([rs[0].value] + tail.value)
  }

  /** Every shape of the animation, in order (the loop at Geometry.py:137-170).
      The first failing shape's error is the result. */
  function RenderShapes(anim: seq<(Polygon, seq<Transform>)>): (r: Result<seq<Frames>>)
    ensures r.Ok? <==> forall k :: 0 <= k < |anim| ==> RenderEntry(anim[k]).Ok?
    ensures r.Ok? ==> |r.value| == |anim|
    ensures r.Ok? ==> forall k :: 0 <= k < |anim| ==> r.value[k] == RenderEntry(anim[k]).value
  {
    var rs := seq(|anim|, k requires 0 <= k < |anim| => RenderEntry(anim[k]));
    assert forall k :: 0 <= k < |anim| ==> rs[k] == RenderEntry(anim[k]);
    Collect(rs)
  }

  // Centroids under the per-depth steps

  function MapLinear(m: Matrix, pts: seq<Point>): (r: seq<Point>)
    ensures |r| == |pts|
  {
    seq(|pts|, k requires 0 <= k < |pts| => Apply(m, pts[k]))
  }

  lemma {:induction false} SumLinear(m: Matrix, pts: seq<Point>)
    ensures Sum(MapLinear(m, pts)) == Apply(m, Sum(pts))
  {
    if |pts| > 0 {
      assert MapLinear(m, pts)[1..] == MapLinear(m, pts[1..]);
      SumLinear(m, pts[1..]);
    }
  }

  lemma DivLinear(a: real, b: real, x: real, y: real, n: real)
    requires n != 0.0
    ensures (a * x + b * y) / n == a * (x / n) + b * (y / n)
  {
  }

  lemma ApplyMinus(m: Matrix, p: Point, q: Point)
    ensures Apply(m, Minus(p, q)) == Minus(Apply(m, p), Apply(m, q))
  {
    assert m.a * (p.x - q.x) == m.a * p.x - m.a * q.x;
    assert m.b * (p.y - q.y) == m.b * p.y - m.b * q.y;
    assert m.c * (p.x - q.x) == m.c * p.x - m.c * q.x;
    assert m.d * (p.y - q.y) == m.d * p.y - m.d * q.y;
  }

  /** A linear map commutes with taking the centroid. */
  lemma CenterLinear(m: Matrix, pts: seq<Point>)
    requires |pts| > 0
    ensures Center(MapLinear(m, pts)) == Apply(m, Center(pts))
  {
    SumLinear(m, pts);
    DivideLinear(m, Sum(pts), |pts| as real);
  }

  lemma DivideLinear(m: Matrix, p: Point, n: real)
    requires n != 0.0
    ensures Divide(Apply(m, p), n) == Apply(m, Divide(p, n))
  {
    DivLinear(m.a, m.b, p.x, p.y, n);
    DivLinear(m.c, m.d, p.x, p.y, n);
  }

  /** The affine step commutes with taking the centroid. */
  lemma CenterAffine(m: Matrix, c: Point, pts: seq<Point>)
    requires |pts| > 0
    ensures Center(MapAffine(m, c, pts)) == Affine(m, c, Center(pts))
  {
    var w := Minus(c, Apply(m, c));
    var lin := MapLinear(m, pts);
    forall k | 0 <= k < |pts|
      ensures MapAffine(m, c, pts)[k] == Translated(lin, w)[k]
    {
      ApplyMinus(m, pts[k], c);
    }
    assert MapAffine(m, c, pts) == Translated(lin, w);
    CenterTranslated(lin, w);
    CenterLinear(m, pts);
    ApplyMinus(m, Center(pts), c);
  }

  /** Every point set of `frames` is non-empty and has centroid `centre`. */
  predicate CentredAt(frames: Frames, centre: Point)
  {
    forall i :: 0 <= i < |frames| ==> |frames[i]| > 0 && Center(frames[i]) == centre
  }

  /** A pivot-less first step keeps every copy's centroid at the shape's
      center, so the center stored at construction stays the true centroid. */
  lemma FirstKeepsCentroid(t: Transform, shape: Polygon)
    requires Valid(shape) && Centred(t)
    requires ApplyFirst(t, shape).Ok?
    ensures CentredAt(ApplyFirst(t, shape).value, shape.center)
  {
    var frames := ApplyFirst(t, shape).value;
    forall i | 0 <= i < |frames|
      ensures |frames[i]| > 0 && Center(frames[i]) == shape.center
    {
      CenterAffine(t.mats[i], shape.center, shape.points);
    }
  }

  /** The same for a pivot-less later step about the original center. */
  lemma NextKeepsCentroid(t: Transform, centre: Point, frames: Frames)
    requires Centred(t) && CentredAt(frames, centre)
    requires ApplyNext(t, centre, frames).Ok?
    ensures CentredAt(ApplyNext(t, centre, frames).value, centre)
  {
    var r := ApplyNext(t, centre, frames).value;
    forall i | 0 <= i < |r|
      ensures |r[i]| > 0 && Center(r[i]) == centre
    {
      CenterAffine(t.mats[i], centre, frames[i]);
    }
  }

  /** Every point set of `frames` is non-empty. */
  predicate NonEmpty(frames: Frames)
  {
    forall i :: 0 <= i < |frames| ==> |frames[i]| > 0
  }

  /** The pivot a naive reading would use: the current centroid of each copy. */
  function RecomputedPivot(t: Transform, pts: seq<Point>): Point
    requires |pts| > 0
  {
    match t.pivot
    case AboutCenter => Center(pts)
    case AboutPoint(q) => q
  }

  /** A later step that recomputes each copy's centroid instead of reusing
      the shape's original center. */
  function ApplyNextRecomputing(t: Transform, frames: Frames): (r: Result<Frames>)
    requires NonEmpty(frames)
    ensures r.Ok? ==> |r.value| == |t.mats| && NonEmpty(r.value)
  {
    if |t.mats| > |frames| then Err(IndexError)
    else Ok(seq(|t.mats|, i requires 0 <= i < |t.mats| => MapAffine(t.mats[i], RecomputedPivot(t, frames[i]), frames[i])))
  }

  function ApplyRestRecomputing(ts: seq<Transform>, frames: Frames): Result<Frames>
    requires NonEmpty(frames)
    decreases |ts|
  {
    if |ts| == 0 then Ok(frames)
    else
      match ApplyNextRecomputing(ts[0], frames)
      case Err(e) => Err(e)
      case Ok(next) => ApplyRestRecomputing(ts[1..], next)
  }

  /** The transform list applied in the given order, every pivot-less step
      about the current centroid. */
  function RenderShapeRecomputing(shape: Polygon, ts: seq<Transform>): Result<Frames>
    requires |shape.points| > 0
  {
    if |ts| == 0 then Err(IndexError)
    else if |ts[0].mats| == 0 then Err(ValueError)
    else
      var t := ts[0];
      var first := seq(|t.mats|, i requires 0 <= i < |t.mats| => MapAffine(t.mats[i], RecomputedPivot(t, shape.points), shape.points));
      ApplyRestRecomputing(ts[1..], first)
  }

  lemma {:induction false} RestAgrees(ts: seq<Transform>, centre: Point, frames: Frames)
    requires NonEmpty(frames)
    requires CentredFirst(ts)
    requires |ts| > 0 && Centred(ts[0]) ==> CentredAt(frames, centre)
    ensures ApplyRest(ts, centre, frames) == ApplyRestRecomputing(ts, frames)
    decreases |ts|
  {
    if |ts| > 0 {
      var t := ts[0];
      var a := ApplyNext(t, centre, frames);
      var b := ApplyNextRecomputing(t, frames);
      if a.Ok? {
        forall i | 0 <= i < |t.mats|
          ensures a.value[i] == b.value[i]
        {
          assert PivotFor(t, centre) == RecomputedPivot(t, frames[i]);
        }
        assert a.value == b.value;
        assert NonEmpty(a.value);
        assert CentredFirst(ts[1..]) by {
          forall i, j | 0 <= i < j < |ts[1..]| && Centred(ts[1..][j])
            ensures Centred(ts[1..][i])
          {
            assert ts[1..][j] == ts[j + 1] && ts[1..][i] == ts[i + 1];
          }
        }
        if |ts| > 1 && Centred(ts[1]) {
          assert Centred(t);
          NextKeepsCentroid(t, centre, frames);
        }
        RestAgrees(ts[1..], centre, a.value);
      }
    }
  }

  /** Reusing the original center is safe: after the partition every
      pivot-less step runs before any fixed-pivot step has moved the shape,
      and pivot-less steps keep the centroid where it was, so recomputing the
      centroid at each pivot-less step would give the same frames. */
  lemma OriginalCenterSuffices(shape: Polygon, ts: seq<Transform>)
    requires Valid(shape)
    ensures RenderShape(shape, ts) == RenderShapeRecomputing(shape, Partition(ts))
  {
    if |ts| > 0 && |Partition(ts)[0].mats| > 0 {
      var order := Partition(ts);
      var t := order[0];
      var first := ApplyFirst(t, shape).value;
      var naive := seq(|t.mats|, i requires 0 <= i < |t.mats| => MapAffine(t.mats[i], RecomputedPivot(t, shape.points), shape.points));
      assert PivotFor(t, shape.center) == RecomputedPivot(t, shape.points);
      assert first == naive;
      assert CentredFirst(order[1..]) by {
        forall i, j | 0 <= i < j < |order[1..]| && Centred(order[1..][j])
          ensures Centred(order[1..][i])
        {
          assert order[1..][j] == order[j + 1] && order[1..][i] == order[i + 1];
        }
      }
      if |order| > 1 && Centred(order[1]) {
        assert Centred(t);
        FirstKeepsCentroid(t, shape);
      }
      RestAgrees(order[1..], shape.center, first);
    }
  }

  // Identity stacks

  /** Every matrix of every stack is the identity. */
  predicate AllIdentity(ts: seq<Transform>)
  {
    forall j, i :: 0 <= j < |ts| && 0 <= i < |ts[j].mats| ==> ts[j].mats[i] == Identity
  }

  lemma {:induction false} RestIdentity(ts: seq<Transform>, centre: Point, frames: Frames, pts: seq<Point>)
    requires AllIdentity(ts)
    requires forall i :: 0 <= i < |frames| ==> frames[i] == pts
    requires ApplyRest(ts, centre, frames).Ok?
    ensures forall i :: 0 <= i < |ApplyRest(ts, centre, frames).value| ==> ApplyRest(ts, centre, frames).value[i] == pts
    decreases |ts|
  {
    if |ts| > 0 {
      var next := ApplyNext(ts[0], centre, frames).value;
      assert forall i :: 0 <= i < |next| ==> ts[0].mats[i] == Identity;
      assert AllIdentity(ts[1..]) by {
        forall j, i | 0 <= j < |ts[1..]| && 0 <= i < |ts[1..][j].mats|
          ensures ts[1..][j].mats[i] == Identity
        {
          assert ts[1..][j] == ts[j + 1];
        }
      }
      RestIdentity(ts[1..], centre, next, pts);
    }
  }

  /** Stacks of identity matrices leave every copy equal to the shape. */
  lemma IdentityKeepsShape(shape: Polygon, ts: seq<Transform>)
    requires AllIdentity(ts)
    requires RenderShape(shape, ts).Ok?
    ensures forall i :: 0 <= i < |RenderShape(shape, ts).value| ==> RenderShape(shape, ts).value[i] == shape.points
  {
    var order := Partition(ts);
    assert AllIdentity(order) by {
      forall j, i | 0 <= j < |order| && 0 <= i < |order[j].mats|
        ensures order[j].mats[i] == Identity
      {
        assert order[j] in multiset(ts);
        var k :| 0 <= k < |ts| && ts[k] == order[j];
      }
    }
    var first := ApplyFirst(order[0], shape).value;
    assert AllIdentity(order[1..]) by {
      forall j, i | 0 <= j < |order[1..]| && 0 <= i < |order[1..][j].mats|
        ensures order[1..][j].mats[i] == Identity
      {
        assert order[1..][j] == order[j + 1];
      }
    }
    RestIdentity(order[1..], shape.center, first, shape.points);
  }
}

=== FILE: filled.dfy ===
/** Filled-mode rasterisation: scanline parity fill followed by a corner pass
    (`Animation.render_points_as_image` in Geometry.py). */
module Filled {
  import opened Shapes
  import opened Raster

  /** One scan step: flip every pixel of the slice `[0:width]` of `row`. */
  datatype Toggle = Toggle(row: nat, width: int)

  /** Toggle `t` flips pixel `(r, c)` of an image `res` pixels wide. */
  predicate Covers(t: Toggle, r: int, c: int, res: nat)
  {
    t.row == r && InSlice(c, 0, t.width, res)
  }

  /** Every toggle names a row of the image. */
  predicate RowsFit(ts: seq<Toggle>, res: nat)
  {
    forall k :: 0 <= k < |ts| ==> ts[k].row < res
  }

  /** `row[0:width] = logical_xor(True, row[0:width])` on one row. */
  function ApplyToggle(img: Image, t: Toggle, res: nat): (r: Image)
    requires IsImage(img, res) && t.row < res
    ensures IsImage(r, res)
    ensures forall i, c :: 0 <= i < res && 0 <= c < res ==> r[i][c] == (img[i][c] != Covers(t, i, c, res))
  {
    var old_row := img[t.row];
    img[t.row := seq(res, c requires 0 <= c < res => old_row[c] != InSlice(c, 0, t.width, res))]
  }

  /** Toggling the same prefix twice restores the image. */
  lemma ToggleInvolution(img: Image, t: Toggle, res: nat)
    requires IsImage(img, res) && t.row < res
    ensures ApplyToggle(ApplyToggle(img, t, res), t, res) == img
  {
    var twice := ApplyToggle(ApplyToggle(img, t, res), t, res);
    forall i | 0 <= i < res
      ensures twice[i] == img[i]
    {
      assert forall c :: 0 <= c < res ==> twice[i][c] == img[i][c];
    }
  }

  /** The toggles applied one after another, in list order. */
  function ApplyToggles(img: Image, ts: seq<Toggle>, res: nat): (r: Image)
    requires IsImage(img, res) && RowsFit(ts, res)
    ensures IsImage(r, res)
    decreases |ts|
  {
    if |ts| == 0 then img
    else ApplyToggles(ApplyToggle(img, ts[0], res), ts[1..], res)
  }

  /** How many of the toggles flip pixel `(r, c)`. */
  function CountCovering(ts: seq<Toggle>, r: int, c: int, res: nat): nat
  {
    if |ts| == 0 then 0
    else (if Covers(ts[0], r, c, res) then 1 else 0) + CountCovering(ts[1..], r, c, res)
  }

  predicate Odd(n: nat) { n % 2 == 1 }

  /** The parity rule: after a run of toggles a pixel differs from its start
      exactly when an odd number of them covered it. */
  lemma {:induction false} TogglesParity(img: Image, ts: seq<Toggle>, res: nat, r: int, c: int)
    requires IsImage(img, res) && RowsFit(ts, res)
    requires 0 <= r < res && 0 <= c < res
    ensures ApplyToggles(img, ts, res)[r][c] == (img[r][c] != Odd(CountCovering(ts, r, c, res)))
    decreases |ts|
  {
    if |ts| > 0 {
      var next := ApplyToggle(img, ts[0], res);
      TogglesParity(next, ts[1..], res, r, c);
    }
  }

  /** The toggles of one edge, one per unit step in y (Geometry.py:209-223):
      the row of height `p1.y ± s` is flipped up to the column the edge
      reaches there. A horizontal edge contributes nothing. */
  function EdgeToggles(p1: Pixel, p2: Pixel, res: nat): (r: seq<Toggle>)
    requires res > 0 && InGrid([p1, p2], res)
    ensures |r| == if p2.y >= p1.y then p2.y - p1.y else p1.y - p2.y
    ensures RowsFit(r, res)
    ensures forall s :: 0 <= s < |r| ==> Min(p1.x, p2.x) <= r[s].width <= Max(p1.x, p2.x)
    ensures forall s, t :: 0 <= s < t < |r| ==> r[s].row != r[t].row
  {
    var n := if p2.y >= p1.y then p2.y - p1.y else p1.y - p2.y;
    assert 0 <= p1.x && 0 <= p2.x && 0 <= p1.y <= res && 0 <= p2.y <= res by {
      assert [p1, p2][0] == p1 && [p1, p2][1] == p2;
    }
    var r := seq(n, s requires 0 <= s < n => Toggle(RowOf(ScanY(p1, p2, s), res), ScanX(p1, p2, s)));
    assert forall s :: 0 <= s < n ==> Min(p1.x, p2.x) <= r[s].width <= Max(p1.x, p2.x) by {
      forall s | 0 <= s < n
        ensures Min(p1.x, p2.x) <= r[s].width <= Max(p1.x, p2.x)
      {
        ScanBetween(p1, p2, s);
      }
    }
    assert forall s, t :: 0 <= s < t < n ==> r[s].row != r[t].row by {
      forall s, t | 0 <= s < t < n
        ensures r[s].row != r[t].row
      {
        ScanBetween(p1, p2, s);
        ScanBetween(p1, p2, t);
        if r[s].row == r[t].row {
          RowOfCollision(ScanY(p1, p2, s), ScanY(p1, p2, t), res);
          assert false;
        }
      }
    }
    r
  }

  /** The total vertical travel along a path of pixels. */
  function Rise(ring: seq<Pixel>): nat
    decreases |ring|
  {
    if |ring| < 2 then 0
    else (if ring[1].y >= ring[0].y then ring[1].y - ring[0].y else ring[0].y - ring[1].y) + Rise(ring[1..])
  }

  /** The toggles of every edge of the closed ring, edge after edge
      (Geometry.py:203-223): one per unit of vertical travel around the ring. */
  function ScanToggles(ring: seq<Pixel>, res: nat): (r: seq<Toggle>)
    requires res > 0 && InGrid(ring, res)
    ensures RowsFit(r, res)
    ensures |r| == Rise(ring)
    decreases |ring|
  {
    if |ring| < 2 then []
    else
      assert InGrid([ring[0], ring[1]], res);
      EdgeToggles(ring[0], ring[1], res) + ScanToggles(ring[1..], res)
  }

  /** The corner pass (Geometry.py:225-229): for each vertex in turn, if
      column 0 of its row is set, flip the row's prefix up to the vertex's
      column. Each test sees the flips made for earlier vertices. A pixel
      can only change when it lies left of some vertex, in that vertex's row. */
  function CornerPass(img: Image, verts: seq<Pixel>, res: nat): (r: Image)
    requires res > 0 && IsImage(img, res) && InGrid(verts, res)
    ensures IsImage(r, res)
    ensures forall i, c :: 0 <= i < res && 0 <= c < res && r[i][c] != img[i][c] ==>
              exists k :: 0 <= k < |verts| && RowOf(verts[k].y, res) == i && c < verts[k].x
    decreases |verts|
  {
    if |verts| == 0 then img
    else
      var row := RowOf(verts[0].y, res);
      var next := if img[row][0] then ApplyToggle(img, Toggle(row, verts[0].x), res) else img;
      var r := CornerPass(next, verts[1..], res);
      assert forall i, c :: 0 <= i < res && 0 <= c < res && r[i][c] != img[i][c] ==>
               exists k :: 0 <= k < |verts| && RowOf(verts[k].y, res) == i && c < verts[k].x by {
        forall i, c | 0 <= i < res && 0 <= c < res && r[i][c] != img[i][c]
          ensures exists k :: 0 <= k < |verts| && RowOf(verts[k].y, res) == i && c < verts[k].x
        {
          if next[i][c] != img[i][c] {
            assert RowOf(verts[0].y, res) == i && c < verts[0].x;
          } else {
            var k :| 0 <= k < |verts[1..]| && RowOf(verts[1..][k].y, res) == i && c < verts[1..][k].x;
            assert verts[1..][k] == verts[k + 1];
          }
        }
      }
      r
  }

  /** A row whose column 0 is clear is never touched by the corner pass. */
  lemma {:induction false} CornerKeepsClearRows(img: Image, verts: seq<Pixel>, res: nat, r: int)
    requires res > 0 && IsImage(img, res) && InGrid(verts, res)
    requires 0 <= r < res && !img[r][0]
    ensures CornerPass(img, verts, res)[r] == img[r]
    decreases |verts|
  {
    if |verts| > 0 {
      var row := RowOf(verts[0].y, res);
      var next := if img[row][0] then ApplyToggle(img, Toggle(row, verts[0].x), res) else img;
      assert next[r] == img[r];
      CornerKeepsClearRows(next, verts[1..], res, r);
    }
  }

  /** Rows that hold no vertex are left as they are. */
  lemma {:induction false} CornerKeepsOtherRows(img: Image, verts: seq<Pixel>, res: nat, r: int)
    requires res > 0 && IsImage(img, res) && InGrid(verts, res)
    requires 0 <= r < res
    requires forall k :: 0 <= k < |verts| ==> RowOf(verts[k].y, res) != r
    ensures CornerPass(img, verts, res)[r] == img[r]
    decreases |verts|
  {
    if |verts| > 0 {
      var row := RowOf(verts[0].y, res);
      var next := if img[row][0] then ApplyToggle(img, Toggle(row, verts[0].x), res) else img;
      assert next[r] == img[r];
      assert forall k :: 0 <= k < |verts[1..]| ==> RowOf(verts[1..][k].y, res) != r by {
        forall k | 0 <= k < |verts[1..]|
          ensures RowOf(verts[1..][k].y, res) != r
        {
          assert verts[1..][k] == verts[k + 1];
        }
      }
      CornerKeepsOtherRows(next, verts[1..], res, r);
    }
  }

  /** After the corner pass, column 0 is clear in the row of every vertex that
      does not sit in column 0. */
  lemma {:induction false} CornerClearsVertexRows(img: Image, verts: seq<Pixel>, res: nat, k: int)
    requires res > 0 && IsImage(img, res) && InGrid(verts, res)
    requires 0 <= k < |verts| && verts[k].x >= 1
    ensures !CornerPass(img, verts, res)[RowOf(verts[k].y, res)][0]
    decreases |verts|
  {
    var row := RowOf(verts[0].y, res);
    var next := if img[row][0] then ApplyToggle(img, Toggle(row, verts[0].x), res) else img;
    if k == 0 {
      assert !next[row][0];
      CornerKeepsClearRows(next, verts[1..], res, row);
    } else {
      assert verts[1..][k - 1] == verts[k];
      CornerClearsVertexRows(next, verts[1..], res, k - 1);
    }
  }

  /** `render_points_as_image` (Geometry.py:185-231): normalise, scan every
      edge onto a blank image, then run the corner pass over the vertices. */
  function RenderFilled(pts: seq<Point>, bounds: (real, real), res: nat): (img: Image)
    requires |pts| > 0 && res > 0 && bounds.1 > 0.0
    requires WithinBounds(pts, bounds.1)
    ensures IsImage(img, res)
  {
    var ring := Normalise(pts, bounds, res);
    var scanned := ApplyToggles(Blank(res), ScanToggles(ring, res), res);
    CornerPass(scanned, ring[..|pts|], res)
  }

  /** The scan and corner pass on a normalised ring, pixel by pixel. */
  lemma RingParity(ring: seq<Pixel>, n: nat, res: nat, r: int, c: int)
    requires res > 0 && InGrid(ring, res) && n <= |ring|
    requires 0 <= r < res && 0 <= c < res
    requires forall k :: 0 <= k < n ==> RowOf(ring[k].y, res) != r
    ensures CornerPass(ApplyToggles(Blank(res), ScanToggles(ring, res), res), ring[..n], res)[r][c]
            == Odd(CountCovering(ScanToggles(ring, res), r, c, res))
  {
    var verts := ring[..n];
    var scanned := ApplyToggles(Blank(res), ScanToggles(ring, res), res);
    assert forall k :: 0 <= k < |verts| ==> RowOf(verts[k].y, res) != r by {
      forall k | 0 <= k < |verts|
        ensures RowOf(verts[k].y, res) != r
      {
        assert verts[k] == ring[k];
      }
    }
    CornerKeepsOtherRows(scanned, verts, res, r);
    TogglesParity(Blank(res), ScanToggles(ring, res), res, r, c);
  }

  /** Away from the rows that hold a vertex, a filled pixel is set exactly
      when an odd number of scan steps covered it: the even-odd rule over
      the row prefixes the edges flip. */
  lemma FilledParity(pts: seq<Point>, bounds: (real, real), res: nat, r: int, c: int)
    requires |pts| > 0 && res > 0 && bounds.1 > 0.0
    requires WithinBounds(pts, bounds.1)
    requires 0 <= r < res && 0 <= c < res
    requires forall k :: 0 <= k < |pts| ==> !OnRow(PixelOf(pts[k], bounds.1, res).y, r, res)
    ensures RenderFilled(pts, bounds, res)[r][c]
            == Odd(CountCovering(ScanToggles(Normalise(pts, bounds, res), res), r, c, res))
  {
    var ring := Normalise(pts, bounds, res);
    assert InGrid(ring, res);
    forall k | 0 <= k < |pts|
      ensures RowOf(ring[k].y, res) != r
    {
      assert ring[k] == PixelOf(pts[k], bounds.1, res);
      assert !OnRow(ring[k].y, r, res);
    }
    RingParity(ring, |pts|, res, r, c);
    assert RenderFilled(pts, bounds, res)
        == CornerPass(ApplyToggles(Blank(res), ScanToggles(ring, res), res), ring[..|pts|], res);
  }
}

=== FILE: raster.dfy ===
/** Pixel grids and the mapping from plane coordinates to pixel indices
    shared by both rasterisers of Geometry.py. */
module Raster {
  import opened Shapes

  /** A point after normalisation: integer column `x` and integer `y`. */
  datatype Pixel = Pixel(x: int, y: int)

  /** Python's `int(v)` on a float: truncation toward zero. */
  function Trunc(v: real): (n: int)
    ensures v >= 0.0 ==> n as real <= v < n as real + 1.0
    ensures v < 0.0 ==> n as real - 1.0 < v <= n as real
  {
    if v >= 0.0 then v.Floor else -((-v).Floor)
  }

  /** The width of one pixel: `bound * 2.0 / resolution`. */
  function StepSize(bound: real, res: nat): real
    requires res > 0
  {
    bound * 2.0 / res as real
  }

  /** One coordinate shifted by the bound, divided by the step and floored. */
  function ToPixel(v: real, bound: real, res: nat): (p: int)
    requires res > 0 && bound > 0.0
    ensures p as real <= (v + bound) * res as real / (2.0 * bound) < p as real + 1.0
  {
    ScaleToGrid(v, bound, res);
    ((v + bound) / StepSize(bound, res)).Floor
  }

  lemma ScaleToGrid(v: real, bound: real, res: nat)
    requires res > 0 && bound > 0.0
    ensures (v + bound) / StepSize(bound, res) == (v + bound) * res as real / (2.0 * bound)
  {
  }

  /** Coordinates in `[-B, B]` land in `[0, R]`, and those below `B` in `[0, R)`. */
  lemma ToPixelRange(v: real, bound: real, res: nat)
    requires res > 0 && bound > 0.0 && -bound <= v <= bound
    ensures 0 <= ToPixel(v, bound, res) <= res
    ensures v < bound ==> ToPixel(v, bound, res) < res
  {
    var q := (v + bound) / StepSize(bound, res);
    var r := res as real;
    ScaleToGrid(v, bound, res);
    assert 0.0 <= (v + bound) * r;
    assert (v + bound) * r <= (2.0 * bound) * r;
    assert 0.0 <= q <= r by {
      DivBetween((v + bound) * r, 2.0 * bound, r);
    }
    if v < bound {
      assert (v + bound) * r < (2.0 * bound) * r;
      DivStrictBelow((v + bound) * r, 2.0 * bound, r);
    }
  }

  lemma DivBetween(x: real, d: real, r: real)
    requires d > 0.0 && 0.0 <= x <= d * r
    ensures 0.0 <= x / d <= r
  {
  }

  lemma DivStrictBelow(x: real, d: real, r: real)
    requires d > 0.0 && x < d * r
    ensures x / d < r
  {
  }

  /** Normalisation keeps the order of coordinates. */
  lemma ToPixelMonotone(v: real, w: real, bound: real, res: nat)
    requires res > 0 && bound > 0.0 && v <= w
    ensures ToPixel(v, bound, res) <= ToPixel(w, bound, res)
  {
    var st := StepSize(bound, res);
    assert st > 0.0;
    assert (v + bound) / st <= (w + bound) / st;
  }

  function PixelOf(p: Point, bound: real, res: nat): Pixel
    requires res > 0 && bound > 0.0
  {
    Pixel(ToPixel(p.x, bound, res), ToPixel(p.y, bound, res))
  }

  /** Every coordinate lies in `[-B, B]`. */
  predicate WithinBounds(pts: seq<Point>, bound: real)
  {
    forall k :: 0 <= k < |pts| ==> -bound <= pts[k].x <= bound && -bound <= pts[k].y <= bound
  }

  /** As `WithinBounds`, with every x strictly below `B`. */
  predicate WithinWireBounds(pts: seq<Point>, bound: real)
  {
    forall k :: 0 <= k < |pts| ==> -bound <= pts[k].x < bound && -bound <= pts[k].y <= bound
  }

  /** Every pixel lies in `[0, R] x [0, R]`. */
  predicate InGrid(px: seq<Pixel>, res: nat)
  {
    forall k :: 0 <= k < |px| ==> 0 <= px[k].x <= res && 0 <= px[k].y <= res
  }

  /** As `InGrid`, with every column strictly below `R`. */
  predicate InWireGrid(px: seq<Pixel>, res: nat)
  {
    forall k :: 0 <= k < |px| ==> 0 <= px[k].x < res && 0 <= px[k].y <= res
  }

  /** The shared prologue at Geometry.py:187-201 (and 251-265): close the ring
      by repeating the first point, then map each point to the pixel grid.
      Only the second component of `bounds` is read. Points inside the
      bounds land on the grid. */
  function Normalise(pts: seq<Point>, bounds: (real, real), res: nat): (r: seq<Pixel>)
    requires |pts| > 0 && res > 0 && bounds.1 > 0.0
    ensures |r| == |pts| + 1
    ensures r[|pts|] == r[0]
    ensures forall k :: 0 <= k < |pts| ==> r[k] == PixelOf(pts[k], bounds.1, res)
    ensures WithinBounds(pts, bounds.1) ==> InGrid(r, res)
    ensures WithinWireBounds(pts, bounds.1) ==> InWireGrid(r, res)
  {
    var closed := pts + [pts[0]];
    var r := seq(|closed|, k requires 0 <= k < |closed| => PixelOf(closed[k], bounds.1, res));
    forall k | 0 <= k < |r|
      ensures WithinBounds(pts, bounds.1) ==> 0 <= r[k].x <= res && 0 <= r[k].y <= res
      ensures WithinWireBounds(pts, bounds.1) ==> 0 <= r[k].x < res && 0 <= r[k].y <= res
    {
      var j := if k == |pts| then 0 else k;
      assert closed[k] == pts[j];
      if WithinBounds(pts, bounds.1) || WithinWireBounds(pts, bounds.1) {
        ToPixelRange(pts[j].x, bounds.1, res);
        ToPixelRange(pts[j].y, bounds.1, res);
      }
    }
    r
  }

  // Images

  /** A boolean image: rows of pixels, row 0 at the top. */
  type Image = seq<seq<bool>>

  predicate IsImage(img: Image, res: nat)
  {
    |img| == res && forall r :: 0 <= r < |img| ==> |img[r]| == res
  }

  /** `np.zeros((resolution, resolution), dtype=bool)`. */
  function Blank(res: nat): (img: Image)
    ensures IsImage(img, res)
    ensures forall r, c :: 0 <= r < res && 0 <= c < res ==> !img[r][c]
  {
    seq(res, r => seq(res, c => false))
  }

  /** Python's reading of a possibly negative index into a sequence of length `n`. */
  function PyIndex(i: int, n: nat): int
  {
    if i < 0 then i + n else i
  }

  /** The image row written for pixel height `y`: the code indexes `[-y]`, so
      height 0 is row 0 and height `y > 0` is row `R - y`. */
  function RowOf(y: int, res: nat): (row: nat)
    requires res > 0 && 0 <= y <= res
    ensures row < res
    ensures row == (res - y) % res
  {
    if y == 0 then
      ModSelf(res);
      PyIndex(-y, res)
    else
      ModSmall(res - y, res);
      PyIndex(-y, res)
  }

  lemma ModSelf(n: int)
    requires n > 0
    ensures n % n == 0
  {
  }

  lemma ModSmall(a: int, n: int)
    requires 0 <= a < n
    ensures a % n == a
  {
  }

  /** Height `y` is drawn in image row `row`. */
  predicate OnRow(y: int, row: int, res: nat)
  {
    res > 0 && 0 <= y <= res && RowOf(y, res) == row
  }

  /** Distinct heights share a row only for the two ends of the grid. */
  lemma RowOfCollision(y1: int, y2: int, res: nat)
    requires res > 0 && 0 <= y1 <= res && 0 <= y2 <= res && y1 != y2
    requires RowOf(y1, res) == RowOf(y2, res)
    ensures (y1 == 0 && y2 == res) || (y1 == res && y2 == 0)
  {
  }

  /** Python's normalisation of a slice bound for a sequence of length `n`:
      negative bounds count from the end, and both ends clamp to `[0, n]`. */
  function SliceBound(i: int, n: nat): (b: int)
    ensures 0 <= b <= n
    ensures 0 <= i <= n ==> b == i
    ensures i > n ==> b == n
  {
    if i < 0 then (if i + n < 0 then 0 else i + n)
    else if i > n then n
    else i
  }

  /** Column `c` belongs to the slice `[lo:hi]` of a row of length `n`. */
  predicate InSlice(c: int, lo: int, hi: int, n: nat)
  {
    SliceBound(lo, n) <= c < SliceBound(hi, n)
  }

  /** `np.logical_or` of two images of the same size. */
  function Or(a: Image, b: Image, res: nat): (r: Image)
    requires IsImage(a, res) && IsImage(b, res)
    ensures IsImage(r, res)
    ensures forall i, j :: 0 <= i < res && 0 <= j < res ==> (r[i][j] <==> a[i][j] || b[i][j])
  {
    seq(res, i requires 0 <= i < res => seq(res, j requires 0 <= j < res => a[i][j] || b[i][j]))
  }

  // Stepping along an edge

  /** The row coordinate after `s` unit steps in y from `p1` toward `p2`. */
  function ScanY(p1: Pixel, p2: Pixel, s: int): int
  {
    if p2.y > p1.y then p1.y + s else p1.y - s
  }

  /** `y_step / slope` with `slope = dy / dx`. For a vertical edge numpy's
      slope is infinite and the offset 0, which the same formula gives. */
  function InvSlopeOffset(s: int, p1: Pixel, p2: Pixel): real
    requires p1.y != p2.y
  {
    s as real * (p2.x - p1.x) as real / (p2.y - p1.y) as real
  }

  /** The column reached after `s` unit steps in y (Geometry.py:214-220 and
      280-286). */
  function ScanX(p1: Pixel, p2: Pixel, s: int): int
    requires p1.y != p2.y
  {
    if p2.y > p1.y then Trunc(p1.x as real + InvSlopeOffset(s, p1, p2))
    else Trunc(p1.x as real - InvSlopeOffset(s, p1, p2))
  }

  function Min(a: int, b: int): int { if a <= b then a else b }

  function Max(a: int, b: int): int { if a <= b then b else a }

  /** The point `a + s·(b − a)/n`, a fraction `s/n` of the way from `a` to `b`. */
  function Lerp(a: int, b: int, s: int, n: int): real
    requires n != 0
  {
    a as real + s as real * (b - a) as real / n as real
  }

  lemma MulBetween(s: real, n: real, d: real)
    requires 0.0 <= s < n
    ensures d >= 0.0 ==> 0.0 <= s * d / n <= d
    ensures d < 0.0 ==> d <= s * d / n <= 0.0
  {
    assert s * d / n == (s / n) * d;
    assert 0.0 <= s / n < 1.0;
  }

  /** For `0 ≤ s < n` the truncated `Lerp` lies between the non-negative
      integers `a` and `b`. */
  lemma TruncBetween(a: int, b: int, s: int, n: int)
    requires 0 <= a && 0 <= b && 0 <= s < n
    ensures Min(a, b) <= Trunc(Lerp(a, b, s, n)) <= Max(a, b)
  {
    var d := (b - a) as real;
    MulBetween(s as real, n as real, d);
    var v := Lerp(a, b, s, n);
    assert v == a as real + s as real * d / n as real;
    TruncWithin(v, Min(a, b), Max(a, b));
  }

  lemma TruncWithin(v: real, lo: int, hi: int)
    requires 0 <= lo && lo as real <= v <= hi as real
    ensures lo <= Trunc(v) <= hi
  {
  }

  lemma NegDivFlip(x: real, d: real, e: real)
    requires d != 0.0 && e == -d
    ensures -(x / d) == x / e
  {
  }

  /** Both scan directions step along `Lerp` from `p1` toward `p2`. */
  lemma ScanIsLerp(p1: Pixel, p2: Pixel, s: int)
    requires p1.y != p2.y
    ensures p2.y > p1.y ==> p1.x as real + InvSlopeOffset(s, p1, p2) == Lerp(p1.x, p2.x, s, p2.y - p1.y)
    ensures p2.y < p1.y ==> p1.x as real - InvSlopeOffset(s, p1, p2) == Lerp(p1.x, p2.x, s, p1.y - p2.y)
  {
    var num := s as real * (p2.x - p1.x) as real;
    NegDivFlip(num, (p2.y - p1.y) as real, (p1.y - p2.y) as real);
  }

  /** Each scanline ends between the columns of the edge's endpoints, and its
      row lies between their heights, never at the far endpoint's. */
  lemma ScanBetween(p1: Pixel, p2: Pixel, s: int)
    requires p1.y != p2.y && 0 <= s < if p2.y > p1.y then p2.y - p1.y else p1.y - p2.y
    requires p1.x >= 0 && p2.x >= 0
    ensures Min(p1.x, p2.x) <= ScanX(p1, p2, s) <= Max(p1.x, p2.x)
    ensures Min(p1.y, p2.y) <= ScanY(p1, p2, s) <= Max(p1.y, p2.y)
    ensures ScanY(p1, p2, s) != p2.y
  {
    ScanIsLerp(p1, p2, s);
    if p2.y > p1.y {
      TruncBetween(p1.x, p2.x, s, p2.y - p1.y);
    } else {
      TruncBetween(p1.x, p2.x, s, p1.y - p2.y);
    }
  }
}

=== FILE: results.dfy ===
/** Failure-compatible wrappers for the places where the renderer raises a
    Python exception instead of returning a value. */
module Results {

  /** The exceptions the render pipeline can raise on inputs it does not guard. */
  datatype Error =
    | IndexError         // indexing past the end of a list or array
    | ZeroDivisionError  // a Python float division by zero
    | ValueError         // numpy arrays whose shapes do not line up

  datatype Result<+T> = Ok(value: T) | Err(error: Error)

  /** An optional argument: Python's `None` or a value. */
  datatype Option<+T> = None | Some(value: T)
}

=== FILE: shapes.dfy ===
/** Polygons on the plane: an ordered point list and its centroid
    (`Polygon` in Geometry.py). */
module Shapes {

  datatype Point = Point(x: real, y: real)

  function Plus(p: Point, q: Point): Point { Point(p.x + q.x, p.y + q.y) }

  function Minus(p: Point, q: Point): Point { Point(p.x - q.x, p.y - q.y) }

  function Times(k: real, p: Point): Point { Point(k * p.x, k * p.y) }

  /** Component-wise sum of a point list, as numpy's `sum` over the first axis. */
  function Sum(pts: seq<Point>): Point
  {
    if |pts| == 0 then Point(0.0, 0.0) else Plus(pts[0], Sum(pts[1..]))
  }

  /** The point `p / n`, component-wise. */
  function Divide(p: Point, n: real): Point
    requires n != 0.0
  {
    Point(p.x / n, p.y / n)
  }

  /** The arithmetic mean of the points (`find_center`). An empty list has no
      centroid: the source divides by zero there. */
  function Center(pts: seq<Point>): (c: Point)
    requires |pts| > 0
    ensures Times(|pts| as real, c) == Sum(pts)
    ensures |pts| == 1 ==> c == pts[0]
  {
    MulDivide(Sum(pts), |pts| as real);
    assert |pts| == 1 ==> Sum(pts) == pts[0];
    Divide(Sum(pts), |pts| as real)
  }

  /** Dividing by `n` and multiplying back gives the point again. */
  lemma MulDivide(p: Point, n: real)
    requires n != 0.0
    ensures Times(n, Divide(p, n)) == p
  {
  }

  /** A polygon keeps its points in winding order together with the centroid
      computed when it was built. */
  datatype Polygon = Polygon(points: seq<Point>, center: Point)

  /** A polygon whose stored center is the centroid of its (non-empty) points. */
  predicate Valid(poly: Polygon)
  {
    |poly.points| > 0 && poly.center == Center(poly.points)
  }

  /** `Polygon(points)`: store the points and compute their centroid. */
  function MakePolygon(pts: seq<Point>): (poly: Polygon)
    requires |pts| > 0
    ensures Valid(poly) && poly.points == pts
  {
    Polygon(pts, Center(pts))
  }

  function Translated(pts: seq<Point>, v: Point): (r: seq<Point>)
    ensures |r| == |pts|
    ensures forall i :: 0 <= i < |pts| ==> r[i] == Plus(pts[i], v)
  {
    seq(|pts|, i requires 0 <= i < |pts| => Plus(pts[i], v))
  }

  function Scaled(pts: seq<Point>, k: real): (r: seq<Point>)
    ensures |r| == |pts|
    ensures forall i :: 0 <= i < |pts| ==> r[i] == Times(k, pts[i])
  {
    seq(|pts|, i requires 0 <= i < |pts| => Times(k, pts[i]))
  }

  /** Translating every point by `v` adds `n·v` to the sum. */
  lemma {:induction false} SumTranslated(pts: seq<Point>, v: Point)
    ensures Sum(Translated(pts, v)) == Plus(Sum(pts), Times(|pts| as real, v))
  {
    if |pts| > 0 {
      var t := Translated(pts, v);
      assert t[1..] == Translated(pts[1..], v);
      SumTranslated(pts[1..], v);
      var m := |pts[1..]| as real;
      assert |pts| as real == m + 1.0;
      assert Sum(t) == Plus(t[0], Sum(t[1..]));
      StepTranslated(pts[0], Sum(pts[1..]), v, m);
    }
  }

  lemma StepTranslated(a: Point, rest: Point, v: Point, m: real)
    ensures Plus(Plus(a, v), Plus(rest, Times(m, v))) == Plus(Plus(a, rest), Times(m + 1.0, v))
  {
    MulSucc(m, v.x);
    MulSucc(m, v.y);
  }

  lemma MulSucc(m: real, a: real)
    ensures m * a + a == (m + 1.0) * a
  {
  }

  /** Scaling every point by `k` scales the sum by `k`. */
  lemma {:induction false} SumScaled(pts: seq<Point>, k: real)
    ensures Sum(Scaled(pts, k)) == Times(k, Sum(pts))
  {
    if |pts| > 0 {
      assert Scaled(pts, k)[1..] == Scaled(pts[1..], k);
      SumScaled(pts[1..], k);
    }
  }

  /** The centroid of a translated point list is the translated centroid. */
  lemma CenterTranslated(pts: seq<Point>, v: Point)
    requires |pts| > 0
    ensures Center(Translated(pts, v)) == Plus(Center(pts), v)
  {
    SumTranslated(pts, v);
    DivideTranslated(Sum(pts), v, |pts| as real);
  }

  lemma DivideTranslated(p: Point, v: Point, n: real)
    requires n != 0.0
    ensures Divide(Plus(p, Times(n, v)), n) == Plus(Divide(p, n), v)
  {
    AddMulDiv(p.x, n, v.x);
    AddMulDiv(p.y, n, v.y);
  }

  lemma AddMulDiv(a: real, n: real, b: real)
    requires n != 0.0
    ensures (a + n * b) / n == a / n + b
  {
  }

  /** The centroid of a scaled point list is the scaled centroid. */
  lemma CenterScaled(pts: seq<Point>, k: real)
    requires |pts| > 0
    ensures Center(Scaled(pts, k)) == Times(k, Center(pts))
  {
    SumScaled(pts, k);
    DivideScaled(k, Sum(pts), |pts| as real);
  }

  lemma DivideScaled(k: real, p: Point, n: real)
    requires n != 0.0
    ensures Divide(Times(k, p), n) == Times(k, Divide(p, n))
  {
    MulDivComm(k, p.x, n);
    MulDivComm(k, p.y, n);
  }

  lemma MulDivComm(k: real, a: real, n: real)
    requires n != 0.0
    ensures (k * a) / n == k * (a / n)
  {
  }

  /** `poly + v` (`__add__`): a new polygon with every point moved by `v`;
      its centroid moves by exactly `v`. */
  function Translate(poly: Polygon, v: Point): (r: Polygon)
    requires Valid(poly)
    ensures Valid(r)
    ensures |r.points| == |poly.points|
    ensures forall i :: 0 <= i < |poly.points| ==> r.points[i] == Plus(poly.points[i], v)
    ensures r.center == Plus(poly.center, v)
  {
    CenterTranslated(poly.points, v);
    MakePolygon(Translated(poly.points, v))
  }

  /** `poly * k` (`__mul__`): a new polygon with every point scaled by `k`;
      its centroid is scaled by `k`. */
  function Scale(poly: Polygon, k: real): (r: Polygon)
    requires Valid(poly)
    ensures Valid(r)
    ensures |r.points| == |poly.points|
    ensures forall i :: 0 <= i < |poly.points| ==> r.points[i] == Times(k, poly.points[i])
    ensures r.center == Times(k, poly.center)
  {
    CenterScaled(poly.points, k);
    MakePolygon(Scaled(poly.points, k))
  }
}

=== FILE: transforms.dfy ===
/** Depth-indexed stacks of 2x2 linear maps with an optional fixed pivot
    (`Rotation` and `Dilation` in Geometry.py). */
module Transforms {
  import opened Results
  import opened Shapes

  /** The matrix [[a, b], [c, d]]. */
  datatype Matrix = Matrix(a: real, b: real, c: real, d: real)

  const Identity := Matrix(1.0, 0.0, 0.0, 1.0)

  /** The matrix-vector product `m · p`. */
  function Apply(m: Matrix, p: Point): Point
  {
    Point(m.a * p.x + m.b * p.y, m.c * p.x + m.d * p.y)
  }

  /** Where a transform is applied: about the subject shape's own center (the
      source's `center is None`), or about a fixed point of the plane. */
  datatype Pivot = AboutCenter | AboutPoint(at: Point)

  /** One matrix per depth index, index 0 first. */
  datatype Transform = Transform(mats: seq<Matrix>, pivot: Pivot)

  predicate IsDiagonal(m: Matrix)
  {
    m.b == 0.0 && m.c == 0.0 && m.a == m.d
  }

  /** `Rotation(theta, center, depth)`. The rotation matrices need cos and sin,
      so the stack is supplied by the caller; only the pivot tag is computed.
      A two-coordinate `center` is a non-empty tuple and therefore truthy, so
      every supplied center, the origin included, becomes a fixed pivot. */
  function Rotation(stack: seq<Matrix>, center: Option<Point>): (t: Transform)
    ensures t.mats == stack
    ensures t.pivot.AboutCenter? <==> center.None?
    ensures center.Some? ==> t.pivot == AboutPoint(center.value)
  {
    match center
    case None => Transform(stack, AboutCenter)
    case Some(p) => Transform(stack, AboutPoint(p))
  }

  /** `i * x / depth`: the share of `x` reached at depth index `i`. */
  function Share(i: int, x: real, depth: int): real
    requires depth != 0
  {
    i as real * x / depth as real
  }

  lemma ShareEnds(x: real, depth: int)
    requires depth != 0
    ensures Share(0, x, depth) == 0.0
    ensures Share(depth, x, depth) == x
  {
    var d := depth as real;
    MulDivCancel(d, x);
  }

  lemma ShareMonotone(i: int, j: int, x: real, depth: int)
    requires depth > 0 && i <= j && x >= 0.0
    ensures Share(i, x, depth) <= Share(j, x, depth)
  {
    var a := i as real * x;
    var b := j as real * x;
    MulMonotone(i as real, j as real, x);
    DivMonotone(a, b, depth as real);
  }

  lemma ShareStrict(i: int, j: int, x: real, depth: int)
    requires depth > 0 && i < j && x > 0.0
    ensures Share(i, x, depth) < Share(j, x, depth)
  {
    var a := i as real * x;
    var b := j as real * x;
    MulStrict(i as real, j as real, x);
    DivStrict(a, b, depth as real);
  }

  lemma ShareNegated(i: int, x: real, y: real, depth: int)
    requires depth != 0 && y == -x
    ensures Share(i, y, depth) == -Share(i, x, depth)
  {
    var a := i as real * x;
    var b := i as real * y;
    MulNeg(i as real, x, y);
    NegDiv(a, b, depth as real);
  }

  lemma MulDivCancel(d: real, x: real)
    requires d != 0.0
    ensures d * x / d == x
  {
  }

  lemma MulMonotone(i: real, j: real, x: real)
    requires i <= j && x >= 0.0
    ensures i * x <= j * x
  {
  }

  lemma MulStrict(i: real, j: real, x: real)
    requires i < j && x > 0.0
    ensures i * x < j * x
  {
  }

  lemma MulNeg(i: real, x: real, y: real)
    requires y == -x
    ensures i * y == -(i * x)
  {
  }

  lemma NegDiv(a: real, b: real, d: real)
    requires d != 0.0 && b == -a
    ensures b / d == -(a / d)
  {
  }

  lemma DivMonotone(x: real, y: real, d: real)
    requires x <= y && d > 0.0
    ensures x / d <= y / d
  {
  }

  lemma DivStrict(x: real, y: real, d: real)
    requires x < y && d > 0.0
    ensures x / d < y / d
  {
  }

  /** The diagonal entry of the `i`-th dilation matrix, as written: for a
      factor above 1 the numerator is the factor itself, otherwise it is
      `1 - factor` and the entry decreases. */
  function DilationEntry(s: real, depth: int, i: int): real
    requires depth != 0
  {
    if s > 1.0 then 1.0 + Share(i, s, depth)
    else 1.0 - Share(i, 1.0 - s, depth)
  }

  lemma DilationEnds(s: real, depth: int)
    requires depth != 0
    ensures DilationEntry(s, depth, 0) == 1.0
    ensures DilationEntry(s, depth, depth) == if s > 1.0 then 1.0 + s else s
  {
    ShareEnds(s, depth);
    ShareEnds(1.0 - s, depth);
  }

  function Diagonal(e: real): Matrix { Matrix(e, 0.0, 0.0, e) }

  /** `Dilation(scale_factor, depth)`: `depth + 1` diagonal matrices and no
      pivot. Depth 0 divides by zero already at index 0; a negative depth
      gives an empty `range` and so an empty stack. */
  function Dilation(s: real, depth: int): (r: Result<Transform>)
    ensures r.Err? <==> depth == 0
    ensures r.Err? ==> r.error == ZeroDivisionError
    ensures r.Ok? ==> r.value.pivot == AboutCenter
    ensures r.Ok? ==> |r.value.mats| == if depth < 0 then 0 else depth + 1
    ensures r.Ok? ==> forall i :: 0 <= i < |r.value.mats| ==> IsDiagonal(r.value.mats[i])
    ensures depth > 0 ==> r.value.mats[0] == Identity
    ensures depth > 0 && s <= 1.0 ==> r.value.mats[depth] == Diagonal(s)
    ensures depth > 0 && s > 1.0 ==> r.value.mats[depth] == Diagonal(1.0 + s)
  {
    if depth == 0 then Err(ZeroDivisionError)
    else
      var n := if depth < 0 then 0 else depth + 1;
      var t := Transform(seq(n, i requires 0 <= i < n => Diagonal(DilationEntry(s, depth, i))), AboutCenter);
      DilationEnds(s, depth);
      Ok(t)
  }

  /** Along a dilation stack the scale moves monotonically away from 1:
      never upward for a factor up to 1, strictly upward above 1. */
  lemma DilationMonotone(s: real, depth: int, i: int, j: int)
    requires depth > 0 && 0 <= i < j <= depth
    ensures s <= 1.0 ==> Dilation(s, depth).value.mats[j].a <= Dilation(s, depth).value.mats[i].a
    ensures s > 1.0 ==> Dilation(s, depth).value.mats[i].a < Dilation(s, depth).value.mats[j].a
  {
    var mats := Dilation(s, depth).value.mats;
    assert mats[i].a == DilationEntry(s, depth, i);
    assert mats[j].a == DilationEntry(s, depth, j);
    if s <= 1.0 {
      ShareMonotone(i, j, 1.0 - s, depth);
    } else {
      ShareStrict(i, j, s, depth);
    }
  }

  function IntendedEntry(s: real, depth: int, i: int): real
    requires depth != 0
  {
    1.0 + Share(i, s - 1.0, depth)
  }

  /** The dilation the documentation describes: the diagonal runs linearly
      from 1 to the factor itself, for every factor. */
  function DilationIntended(s: real, depth: int): (r: Result<Transform>)
    ensures r.Err? <==> depth == 0
    ensures r.Ok? ==> r.value.pivot == AboutCenter
    ensures r.Ok? ==> |r.value.mats| == if depth < 0 then 0 else depth + 1
    ensures r.Ok? ==> forall i :: 0 <= i < |r.value.mats| ==> IsDiagonal(r.value.mats[i])
    ensures depth > 0 ==> r.value.mats[0] == Identity
    ensures depth > 0 ==> r.value.mats[depth] == Diagonal(s)
  {
    if depth == 0 then Err(ZeroDivisionError)
    else
      var n := if depth < 0 then 0 else depth + 1;
      var t := Transform(seq(n, i requires 0 <= i < n => Diagonal(IntendedEntry(s, depth, i))), AboutCenter);
      ShareEnds(s - 1.0, depth);
      Ok(t)
  }

  /** The two definitions agree on every factor up to 1 and disagree at the
      final depth index on every factor above 1, where the source overshoots
      the requested factor by exactly 1. */
  lemma DilationOvershoots(s: real, depth: int)
    requires depth > 0
    ensures s <= 1.0 ==> Dilation(s, depth) == DilationIntended(s, depth)
    ensures s > 1.0 ==> Dilation(s, depth).value.mats[depth].a == DilationIntended(s, depth).value.mats[depth].a + 1.0
  {
    if s <= 1.0 {
      var a := Dilation(s, depth).value.mats;
      var b := DilationIntended(s, depth).value.mats;
      forall i | 0 <= i < |a|
        ensures a[i] == b[i]
      {
        ShareNegated(i, 1.0 - s, s - 1.0, depth);
        assert DilationEntry(s, depth, i) == IntendedEntry(s, depth, i);
      }
      assert a == b;
    }
  }
}

=== FILE: volume.dfy ===
/** Stacking every shape's per-depth rasters into one boolean volume
    (`Animation.render_volume_data` in Geometry.py). */
module Volume {
  import opened Results
  import opened Shapes
  import opened Raster
  import opened Compositor
  import opened Filled
  import opened Wires

  /** One image per depth index. */
  type Volume = seq<Image>

  predicate IsVolume(vol: Volume, depth: nat, res: nat)
  {
    |vol| == depth && forall i :: 0 <= i < |vol| ==> IsImage(vol[i], res)
  }

  /** Every point set of every shape is non-empty and inside the bounds the
      chosen mode needs. */
  predicate Drawable(shapes: seq<Frames>, bound: real, fast: bool)
  {
    forall f, i :: f in shapes && 0 <= i < |f| ==>
      && |f[i]| > 0
      && (fast ==> WithinWireBounds(f[i], bound))
      && (!fast ==> WithinBounds(f[i], bound))
  }

  function BlankVolume(depth: nat, res: nat): (vol: Volume)
    ensures IsVolume(vol, depth, res)
    ensures forall i, r, c :: 0 <= i < depth && 0 <= r < res && 0 <= c < res ==> !vol[i][r][c]
  {
    seq(depth, i => Blank(res))
  }

  /** The wireframe of one point set drawn on its own. */
  function WireImage(pts: seq<Point>, bounds: (real, real), res: nat): Image
    requires |pts| > 0 && res > 0 && bounds.1 > 0.0
    requires WithinWireBounds(pts, bounds.1)
  {
    RenderWires(pts, bounds, res, None)
  }

  /** Frame `i` of `frames`, drawn on its own as a wireframe, sets pixel `(r, c)`. */
  predicate WireHit(frames: Frames, i: int, bounds: (real, real), res: nat, r: int, c: int)
  {
    && 0 <= i < |frames| && |frames[i]| > 0 && res > 0 && bounds.1 > 0.0
    && WithinWireBounds(frames[i], bounds.1) && 0 <= r < res && 0 <= c < res
    && WireImage(frames[i], bounds, res)[r][c]
  }

  /** Frame `i` of `frames`, filled on its own, sets pixel `(r, c)`. */
  predicate FillHit(frames: Frames, i: int, bounds: (real, real), res: nat, r: int, c: int)
  {
    && 0 <= i < |frames| && |frames[i]| > 0 && res > 0 && bounds.1 > 0.0
    && WithinBounds(frames[i], bounds.1) && 0 <= r < res && 0 <= c < res
    && RenderFilled(frames[i], bounds, res)[r][c]
  }

  /** Membership in a non-empty list is membership of its head or its tail. */
  lemma SplitMembers<T>(s: seq<T>)
    requires |s| > 0
    ensures forall x :: x in s <==> x == s[0] || x in s[1..]
  {
    assert s == [s[0]] + s[1..];
  }

  // Fast mode: wireframes drawn in place into one shared image per depth

  /** One shape's frames drawn onto the accumulated images (Geometry.py:339-341):
      frame `i` onto layer `i` for every frame the shape has. A shape with
      more frames than the volume has layers raises IndexError at
      `final_volume[i]`. */
  function DrawShapeWires(vol: Volume, frames: Frames, bounds: (real, real), res: nat): (r: Result<Volume>)
    requires res > 0 && bounds.1 > 0.0 && IsVolume(vol, |vol|, res)
    requires forall i :: 0 <= i < |frames| ==> |frames[i]| > 0 && WithinWireBounds(frames[i], bounds.1)
    ensures r.Err? <==> |frames| > |vol|
    ensures r.Err? ==> r.error == IndexError
    ensures r.Ok? ==> IsVolume(r.value, |vol|, res)
    ensures r.Ok? ==> forall i :: |frames| <= i < |vol| ==> r.value[i] == vol[i]
  {
    if |frames| > |vol| then Err(IndexError)
    else
      Ok(seq(|vol|, i requires 0 <= i < |vol| =>
        if i < |frames| then RenderWires(frames[i], bounds, res, Some(vol[i])) else vol[i]))
  }

  /** The fast-mode loop over shapes (Geometry.py:335-341). It fails exactly
      when some shape has more frames than the volume has layers, and keeps
      the volume's depth otherwise. */
  function FastVolume(vol: Volume, shapes: seq<Frames>, bounds: (real, real), res: nat): (r: Result<Volume>)
    requires res > 0 && bounds.1 > 0.0 && IsVolume(vol, |vol|, res)
    requires Drawable(shapes, bounds.1, true)
    ensures r.Ok? <==> forall f :: f in shapes ==> |f| <= |vol|
    ensures r.Err? ==> r.error == IndexError
    ensures r.Ok? ==> IsVolume(r.value, |vol|, res)
    decreases |shapes|
  {
    if |shapes| == 0 then Ok(vol)
    else
      SplitMembers(shapes);
      match DrawShapeWires(vol, shapes[0], bounds, res)
      case Err(e) => Err(e)
      case Ok(next) => FastVolume(next, shapes[1..], bounds, res)
  }

  /** Drawing every shape in place onto the shared images sets a voxel exactly
      when it was set already or some shape's own wireframe at that depth
      sets it; a shape with fewer frames leaves the deeper layers alone. */
  lemma {:induction false} FastIsUnion(vol: Volume, shapes: seq<Frames>, bounds: (real, real), res: nat, i: int, r: int, c: int)
    requires res > 0 && bounds.1 > 0.0 && IsVolume(vol, |vol|, res)
    requires Drawable(shapes, bounds.1, true)
    requires FastVolume(vol, shapes, bounds, res).Ok?
    requires 0 <= i < |vol| && 0 <= r < res && 0 <= c < res
    ensures FastVolume(vol, shapes, bounds, res).value[i][r][c]
            == (vol[i][r][c] || exists f :: f in shapes && WireHit(f, i, bounds, res, r, c))
    decreases |shapes|
  {
    if |shapes| > 0 {
      SplitMembers(shapes);
      var next := DrawShapeWires(vol, shapes[0], bounds, res).value;
      if i < |shapes[0]| {
        WiresOverlay(shapes[0][i], bounds, res, vol[i]);
        assert next[i][r][c] == (vol[i][r][c] || WireHit(shapes[0], i, bounds, res, r, c));
      } else {
        assert next[i][r][c] == vol[i][r][c];
        assert !WireHit(shapes[0], i, bounds, res, r, c);
      }
      FastIsUnion(next, shapes[1..], bounds, res, i, r, c);
    }
  }

  // Filled mode: one volume per shape, combined with logical OR

  /** numpy's broadcasting of two leading axes of lengths `d` and `l`: equal
      lengths pair up and a length-1 axis is repeated; any other pair raises
      ValueError. */
  function Broadcast(d: nat, l: nat): (r: Option<nat>)
    ensures r.Some? <==> d == l || d == 1 || l == 1
    ensures r.Some? ==> (d != 1 ==> r.value == d) && (l != 1 ==> r.value == l)
    ensures r.Some? ==> (r.value == 1 <==> d == 1 && l == 1)
  {
    if d == 1 then Some(l) else if d == l || l == 1 then Some(d) else None
  }

  /** The layer of an `n`-layer stack that broadcasting pairs with index `i`. */
  function Spread(n: nat, i: nat): nat
  {
    if n == 1 then 0 else i
  }

  /** `np.logical_or` of two volumes, broadcast along the depth axis. */
  function OrBroadcast(a: Volume, b: Volume, res: nat): (r: Volume)
    requires IsVolume(a, |a|, res) && IsVolume(b, |b|, res)
    requires Broadcast(|a|, |b|).Some?
    ensures IsVolume(r, Broadcast(|a|, |b|).value, res)
    ensures forall i, x, y :: 0 <= i < |r| && 0 <= x < res && 0 <= y < res ==>
              (r[i][x][y] <==> a[Spread(|a|, i)][x][y] || b[Spread(|b|, i)][x][y])
  {
    var n := Broadcast(|a|, |b|).value;
    seq(n, i requires 0 <= i < n => Or(a[Spread(|a|, i)], b[Spread(|b|, i)], res))
  }

  /** One shape filled in isolation, one image per frame (Geometry.py:346-350). */
  function FilledShape(frames: Frames, bounds: (real, real), res: nat): (r: Volume)
    requires res > 0 && bounds.1 > 0.0
    requires forall i :: 0 <= i < |frames| ==> |frames[i]| > 0 && WithinBounds(frames[i], bounds.1)
    ensures IsVolume(r, |frames|, res)
    ensures forall i, x, y :: 0 <= i < |frames| && 0 <= x < res && 0 <= y < res ==>
              (r[i][x][y] <==> FillHit(frames, i, bounds, res, x, y))
  {
    seq(|frames|, i requires 0 <= i < |frames| => RenderFilled(frames[i], bounds, res))
  }

  /** Every shape has at least one frame, and the frame counts other than
      one all agree: the shapes numpy can broadcast against each other. */
  predicate Compatible(shapes: seq<Frames>)
  {
    forall f, g :: f in shapes && g in shapes ==> |f| > 0 && (|f| != 1 && |g| != 1 ==> |f| == |g|)
  }

  /** The shapes are compatible and, unless the volume has a single layer,
      every count other than one equals the volume's depth `d`. */
  predicate Broadcastable(d: nat, shapes: seq<Frames>)
  {
    && Compatible(shapes)
    && forall f :: f in shapes && d != 1 && |f| != 1 ==> |f| == d
  }

  /** Broadcasting the shapes one at a time succeeds exactly when they are
      broadcastable all together. */
  lemma BroadcastableStep(d: nat, shapes: seq<Frames>)
    requires |shapes| > 0
    ensures Broadcastable(d, shapes) <==>
              && |shapes[0]| > 0
              && Broadcast(d, |shapes[0]|).Some?
              && Broadcastable(Broadcast(d, |shapes[0]|).value, shapes[1..])
  {
    SplitMembers(shapes);
    var l := |shapes[0]|;
    if Broadcastable(d, shapes) {
      assert l > 0;
      var n := Broadcast(d, l).value;
      assert Compatible(shapes[1..]) by {
        forall f, g | f in shapes[1..] && g in shapes[1..]
          ensures |f| > 0 && (|f| != 1 && |g| != 1 ==> |f| == |g|)
        {
          assert f in shapes && g in shapes;
        }
      }
      forall f | f in shapes[1..] && n != 1 && |f| != 1
        ensures |f| == n
      {
        assert f in shapes;
        assert shapes[0] in shapes;
      }
    }
    if l > 0 && Broadcast(d, l).Some? && Broadcastable(Broadcast(d, l).value, shapes[1..]) {
      var n := Broadcast(d, l).value;
      forall f, g | f in shapes && g in shapes
        ensures |f| > 0 && (|f| != 1 && |g| != 1 ==> |f| == |g|)
      {
        if f != shapes[0] {
          assert f in shapes[1..];
        }
        if g != shapes[0] {
          assert g in shapes[1..];
        }
      }
      forall f | f in shapes && d != 1 && |f| != 1
        ensures |f| == d
      {
        if f != shapes[0] {
          assert f in shapes[1..];
        }
      }
    }
  }

  /** The filled-mode loop over shapes (Geometry.py:344-352). An empty
      `volume_data` list has shape `(0,)`, which does not broadcast against a
      volume of more than one column, so it is a ValueError too. */
  function FilledVolume(vol: Volume, shapes: seq<Frames>, bounds: (real, real), res: nat): (r: Result<Volume>)
    requires res > 0 && bounds.1 > 0.0 && IsVolume(vol, |vol|, res)
    requires Drawable(shapes, bounds.1, false)
    ensures r.Ok? <==> Broadcastable(|vol|, shapes)
    ensures r.Err? ==> r.error == ValueError
    ensures r.Ok? ==> IsVolume(r.value, |r.value|, res)
    ensures r.Ok? && |vol| != 1 ==> |r.value| == |vol|
    ensures r.Ok? ==> forall f :: f in shapes ==> |f| == 1 || |f| == |r.value|
    ensures r.Ok? ==> |r.value| == |vol| || exists f :: f in shapes && |f| == |r.value|
    decreases |shapes|
  {
    if |shapes| == 0 then Ok(vol)
    else
      BroadcastableStep(|vol|, shapes);
      SplitMembers(shapes);
      if |shapes[0]| == 0 || Broadcast(|vol|, |shapes[0]|).None? then Err(ValueError)
      else
        var next := OrBroadcast(vol, FilledShape(shapes[0], bounds, res), res);
        FilledVolume(next, shapes[1..], bounds, res)
  }

  /** Some shape's broadcast frame fills `(r, c)` exactly when the first
      shape's does or some later shape's does. */
  lemma FillHitSplit(shapes: seq<Frames>, bounds: (real, real), res: nat, i: nat, r: int, c: int)
    requires |shapes| > 0
    ensures (exists f :: f in shapes && FillHit(f, Spread(|f|, i), bounds, res, r, c))
            == (FillHit(shapes[0], Spread(|shapes[0]|, i), bounds, res, r, c)
                || exists f :: f in shapes[1..] && FillHit(f, Spread(|f|, i), bounds, res, r, c))
  {
    SplitMembers(shapes);
  }

  /** One OR step, read at a depth `i` that is in range once broadcasting
      is done: the broadcast layer of the volume ORed with the shape's
      broadcast frame. */
  lemma OrStepLayer(vol: Volume, frames: Frames, bounds: (real, real), res: nat, depth: nat, i: int, r: int, c: int)
    requires res > 0 && bounds.1 > 0.0 && IsVolume(vol, |vol|, res)
    requires forall k :: 0 <= k < |frames| ==> |frames[k]| > 0 && WithinBounds(frames[k], bounds.1)
    requires |frames| > 0 && Broadcast(|vol|, |frames|).Some?
    requires Broadcast(|vol|, |frames|).value != 1 ==> depth == Broadcast(|vol|, |frames|).value
    requires 0 <= i < depth && 0 <= r < res && 0 <= c < res
    ensures Spread(|vol|, i) < |vol|
    ensures OrBroadcast(vol, FilledShape(frames, bounds, res), res)[Spread(Broadcast(|vol|, |frames|).value, i)][r][c]
            == (vol[Spread(|vol|, i)][r][c] || FillHit(frames, Spread(|frames|, i), bounds, res, r, c))
  {
    var d, l := |vol|, |frames|;
    var n := Broadcast(d, l).value;
    var fs := FilledShape(frames, bounds, res);
    var j := Spread(n, i);
    assert Spread(d, j) == Spread(d, i) && Spread(l, j) == Spread(l, i);
    assert Spread(l, i) < l;
    assert fs[Spread(l, i)][r][c] == FillHit(frames, Spread(l, i), bounds, res, r, c);
  }

  /** The running OR sets a voxel exactly when the broadcast layer of the
      starting volume sets it or some shape's isolated fill of the frame
      broadcast to that depth sets it. */
  lemma {:induction false} FilledIsUnion(vol: Volume, shapes: seq<Frames>, bounds: (real, real), res: nat, i: int, r: int, c: int)
    requires res > 0 && bounds.1 > 0.0 && IsVolume(vol, |vol|, res)
    requires Drawable(shapes, bounds.1, false)
    requires FilledVolume(vol, shapes, bounds, res).Ok?
    requires 0 <= i < |FilledVolume(vol, shapes, bounds, res).value| && 0 <= r < res && 0 <= c < res
    ensures FilledVolume(vol, shapes, bounds, res).value[i][r][c]
            == (vol[Spread(|vol|, i)][r][c] || exists f :: f in shapes && FillHit(f, Spread(|f|, i), bounds, res, r, c))
    decreases |shapes|
  {
    if |shapes| > 0 {
      var next := OrBroadcast(vol, FilledShape(shapes[0], bounds, res), res);
      var out := FilledVolume(next, shapes[1..], bounds, res).value;
      assert out == FilledVolume(vol, shapes, bounds, res).value;
      assert shapes[0] in shapes;
      OrStepLayer(vol, shapes[0], bounds, res, |out|, i, r, c);
      FilledIsUnion(next, shapes[1..], bounds, res, i, r, c);
      FillHitSplit(shapes, bounds, res, i, r, c);
    }
  }

  // The entry point

  /** `render_volume_data` (Geometry.py:329-359) on the rendered shapes: a
      blank volume with one layer per frame of the first shape, then the
      wireframe or the filled path. With no shapes, `final_shapes[0]` raises
      IndexError. Either way a finished volume is as deep as the longest
      shape; in filled mode every other shape has one frame or that many. */
  function RenderVolumeData(shapes: seq<Frames>, bounds: (real, real), res: nat, fast: bool): (r: Result<Volume>)
    requires res > 0 && bounds.1 > 0.0
    requires Drawable(shapes, bounds.1, fast)
    ensures |shapes| == 0 ==> r == Err(IndexError)
    ensures |shapes| > 0 && fast ==> (r.Ok? <==> forall f :: f in shapes ==> |f| <= |shapes[0]|)
    ensures |shapes| > 0 && !fast ==> (r.Ok? <==> Compatible(shapes))
    ensures r.Ok? ==> IsVolume(r.value, |r.value|, res)
    ensures r.Ok? ==> (forall f :: f in shapes ==> |f| <= |r.value|) && exists f :: f in shapes && |f| == |r.value|
    ensures r.Ok? && fast ==> |r.value| == |shapes[0]|
    ensures r.Ok? && !fast ==> forall f :: f in shapes ==> |f| == 1 || |f| == |r.value|
  {
    if |shapes| == 0 then Err(IndexError)
    else
      assert shapes[0] in shapes;
      var start := BlankVolume(|shapes[0]|, res);
      if fast then FastVolume(start, shapes, bounds, res)
      else FilledVolume(start, shapes, bounds, res)
  }

  /** Each voxel of the volume is set exactly when some shape's own raster
      at that depth sets it: its wireframe in fast mode, and in filled mode
      the isolated fill of its frame at that depth, or of its only frame. */
  lemma VolumeIsUnion(shapes: seq<Frames>, bounds: (real, real), res: nat, fast: bool, i: int, r: int, c: int)
    requires res > 0 && bounds.1 > 0.0
    requires Drawable(shapes, bounds.1, fast)
    requires RenderVolumeData(shapes, bounds, res, fast).Ok?
    requires 0 <= i < |RenderVolumeData(shapes, bounds, res, fast).value| && 0 <= r < res && 0 <= c < res
    ensures fast ==> (RenderVolumeData(shapes, bounds, res, fast).value[i][r][c]
                      <==> exists f :: f in shapes && WireHit(f, i, bounds, res, r, c))
    ensures !fast ==> (RenderVolumeData(shapes, bounds, res, fast).value[i][r][c]
                       <==> exists f :: f in shapes && FillHit(f, Spread(|f|, i), bounds, res, r, c))
  {
    var start := BlankVolume(|shapes[0]|, res);
    if fast {
      FastIsUnion(start, shapes, bounds, res, i, r, c);
    } else {
      FilledIsUnion(start, shapes, bounds, res, i, r, c);
    }
  }

  /** Two lists with the same multiset of shapes have the same members. */
  lemma SameMembers(a: seq<Frames>, b: seq<Frames>)
    requires multiset(a) == multiset(b)
    ensures |a| == |b|
    ensures forall f :: f in a <==> f in b
  {
    assert |a| == |multiset(a)| == |multiset(b)| == |b|;
    forall f
      ensures f in a <==> f in b
    {
      assert f in a <==> f in multiset(a);
      assert f in b <==> f in multiset(b);
    }
  }

  /** Drawability depends only on which shapes are listed. */
  lemma SameDrawable(a: seq<Frames>, b: seq<Frames>, bound: real, fast: bool)
    requires forall f :: f in a <==> f in b
    requires Drawable(a, bound, fast)
    ensures Drawable(b, bound, fast)
  {
    forall f, i | f in b && 0 <= i < |f|
      ensures |f[i]| > 0 && (fast ==> WithinWireBounds(f[i], bound)) && (!fast ==> WithinBounds(f[i], bound))
    {
      assert f in a;
    }
  }

  /** So does compatibility of the frame counts. */
  lemma SameCompatible(a: seq<Frames>, b: seq<Frames>)
    requires forall f :: f in a <==> f in b
    ensures Compatible(a) <==> Compatible(b)
  {
  }

  /** Two lists with the same members that both render give volumes of one
      depth. */
  lemma SameDepth(a: seq<Frames>, b: seq<Frames>, bounds: (real, real), res: nat, fast: bool)
    requires res > 0 && bounds.1 > 0.0
    requires Drawable(a, bounds.1, fast) && Drawable(b, bounds.1, fast)
    requires forall f :: f in a <==> f in b
    requires RenderVolumeData(a, bounds, res, fast).Ok? && RenderVolumeData(b, bounds, res, fast).Ok?
    ensures |RenderVolumeData(a, bounds, res, fast).value| == |RenderVolumeData(b, bounds, res, fast).value|
  {
    var va := RenderVolumeData(a, bounds, res, fast).value;
    var vb := RenderVolumeData(b, bounds, res, fast).value;
    var fa :| fa in a && |fa| == |va|;
    var fb :| fb in b && |fb| == |vb|;
    assert |fa| <= |vb| && |fb| <= |va|;
  }

  /** Two lists with the same members that both render agree on a voxel. */
  lemma SameVoxel(a: seq<Frames>, b: seq<Frames>, bounds: (real, real), res: nat, fast: bool, i: int, x: int, y: int)
    requires res > 0 && bounds.1 > 0.0
    requires Drawable(a, bounds.1, fast) && Drawable(b, bounds.1, fast)
    requires forall f :: f in a <==> f in b
    requires RenderVolumeData(a, bounds, res, fast).Ok? && RenderVolumeData(b, bounds, res, fast).Ok?
    requires |RenderVolumeData(a, bounds, res, fast).value| == |RenderVolumeData(b, bounds, res, fast).value|
    requires 0 <= i < |RenderVolumeData(a, bounds, res, fast).value| && 0 <= x < res && 0 <= y < res
    ensures RenderVolumeData(a, bounds, res, fast).value[i][x][y] == RenderVolumeData(b, bounds, res, fast).value[i][x][y]
  {
    VolumeIsUnion(a, bounds, res, fast, i, x, y);
    VolumeIsUnion(b, bounds, res, fast, i, x, y);
    if fast {
      assert (exists f :: f in a && WireHit(f, i, bounds, res, x, y))
             == (exists f :: f in b && WireHit(f, i, bounds, res, x, y));
    } else {
      assert (exists f :: f in a && FillHit(f, Spread(|f|, i), bounds, res, x, y))
             == (exists f :: f in b && FillHit(f, Spread(|f|, i), bounds, res, x, y));
    }
  }

  /** Two lists with the same members that both render give one volume. */
  lemma SameVolume(a: seq<Frames>, b: seq<Frames>, bounds: (real, real), res: nat, fast: bool)
    requires res > 0 && bounds.1 > 0.0
    requires Drawable(a, bounds.1, fast) && Drawable(b, bounds.1, fast)
    requires forall f :: f in a <==> f in b
    requires RenderVolumeData(a, bounds, res, fast).Ok? && RenderVolumeData(b, bounds, res, fast).Ok?
    ensures RenderVolumeData(a, bounds, res, fast).value == RenderVolumeData(b, bounds, res, fast).value
  {
    var va := RenderVolumeData(a, bounds, res, fast).value;
    var vb := RenderVolumeData(b, bounds, res, fast).value;
    SameDepth(a, b, bounds, res, fast);
    forall i, x, y | 0 <= i < |va| && 0 <= x < res && 0 <= y < res
      ensures va[i][x][y] == vb[i][x][y]
    {
      SameVoxel(a, b, bounds, res, fast, i, x, y);
    }
    SameVoxels(va, vb, res);
  }

  /** The volume does not depend on the order in which shapes are listed:
      in filled mode any rearrangement succeeds exactly when the original
      does, and in both modes two rearrangements that succeed render the
      same voxels. In fast mode success does depend on the order, since the
      first shape fixes the depth. */
  lemma ShapeOrderIrrelevant(a: seq<Frames>, b: seq<Frames>, bounds: (real, real), res: nat, fast: bool)
    requires res > 0 && bounds.1 > 0.0
    requires Drawable(a, bounds.1, fast)
    requires multiset(a) == multiset(b)
    ensures Drawable(b, bounds.1, fast)
    ensures !fast ==> (RenderVolumeData(a, bounds, res, fast).Ok? <==> RenderVolumeData(b, bounds, res, fast).Ok?)
    ensures RenderVolumeData(a, bounds, res, fast).Ok? && RenderVolumeData(b, bounds, res, fast).Ok?
            ==> RenderVolumeData(a, bounds, res, fast).value == RenderVolumeData(b, bounds, res, fast).value
  {
    SameMembers(a, b);
    SameDrawable(a, b, bounds.1, fast);
    if !fast {
      SameCompatible(a, b);
    }
    if RenderVolumeData(a, bounds, res, fast).Ok? && RenderVolumeData(b, bounds, res, fast).Ok? {
      SameVolume(a, b, bounds, res, fast);
    }
  }

  /** Two volumes of one shape that agree on every voxel are equal. */
  lemma SameVoxels(va: Volume, vb: Volume, res: nat)
    requires IsVolume(va, |va|, res) && IsVolume(vb, |va|, res)
    requires forall i, x, y :: 0 <= i < |va| && 0 <= x < res && 0 <= y < res ==> va[i][x][y] == vb[i][x][y]
    ensures va == vb
  {
    forall i, x | 0 <= i < |va| && 0 <= x < res
      ensures va[i][x] == vb[i][x]
    {
    }
    forall i | 0 <= i < |va|
      ensures va[i] == vb[i]
    {
    }
  }
}

=== FILE: wires.dfy ===
/** Wireframe-mode rasterisation: a line walk that only ever sets pixels
    (`Animation.render_points_as_wires` in Geometry.py). */
module Wires {
  import opened Results
  import opened Shapes
  import opened Raster

  /** One set-only write into an image. */
  datatype Write =
    | Dot(row: nat, col: int)           // image[row][col] = True
    | Span(row: nat, lo: int, hi: int)  // image[row][lo:hi] = True

  /** Write `w` sets pixel `(r, c)` of an image `res` pixels wide. */
  predicate Hits(w: Write, r: int, c: int, res: nat)
  {
    match w
    case Dot(row, col) => row == r && col == c
    case Span(row, lo, hi) => row == r && InSlice(c, lo, hi, res)
  }

  /** Every write names a row of the image, and every single-pixel write a
      column of it. */
  predicate WritesFit(ws: seq<Write>, res: nat)
  {
    forall k :: 0 <= k < |ws| ==> ws[k].row < res && (ws[k].Dot? ==> 0 <= ws[k].col < res)
  }

  function ApplyWrite(img: Image, w: Write, res: nat): (r: Image)
    requires IsImage(img, res) && WritesFit([w], res)
    ensures IsImage(r, res)
    ensures forall i, c :: 0 <= i < res && 0 <= c < res ==> r[i][c] == (img[i][c] || Hits(w, i, c, res))
  {
    assert [w][0] == w;
    var old_row := img[w.row];
    img[w.row := seq(res, c requires 0 <= c < res => old_row[c] || Hits(w, w.row, c, res))]
  }

  /** The writes performed one after another, in list order. */
  function ApplyWrites(img: Image, ws: seq<Write>, res: nat): (r: Image)
    requires IsImage(img, res) && WritesFit(ws, res)
    ensures IsImage(r, res)
    decreases |ws|
  {
    if |ws| == 0 then img
    else
      assert WritesFit([ws[0]], res);
      ApplyWrites(ApplyWrite(img, ws[0], res), ws[1..], res)
  }

  /** After a run of writes a pixel is set exactly when it was set before or
      some write hit it; in particular no pixel is ever cleared. */
  lemma {:induction false} WritesSetOnly(img: Image, ws: seq<Write>, res: nat, r: int, c: int)
    requires IsImage(img, res) && WritesFit(ws, res)
    requires 0 <= r < res && 0 <= c < res
    ensures ApplyWrites(img, ws, res)[r][c] == (img[r][c] || exists k :: 0 <= k < |ws| && Hits(ws[k], r, c, res))
    decreases |ws|
  {
    if |ws| > 0 {
      assert WritesFit([ws[0]], res);
      var next := ApplyWrite(img, ws[0], res);
      WritesSetOnly(next, ws[1..], res, r, c);
      if exists k :: 0 <= k < |ws[1..]| && Hits(ws[1..][k], r, c, res) {
        var k :| 0 <= k < |ws[1..]| && Hits(ws[1..][k], r, c, res);
        assert ws[1..][k] == ws[k + 1];
      }
      if exists k :: 0 <= k < |ws| && Hits(ws[k], r, c, res) {
        var k :| 0 <= k < |ws| && Hits(ws[k], r, c, res);
        if k > 0 {
          assert ws[1..][k - 1] == ws[k];
        }
      }
    }
  }

  /** The x-coordinate after `s` unit steps in x from `p1` toward `p2`. */
  function StepX(p1: Pixel, p2: Pixel, s: int): int
  {
    if p2.x > p1.x then p1.x + s else p1.x - s
  }

  /** The line walk's `slope`, `dy / dx`, for an edge that is not vertical. */
  function Slope(p1: Pixel, p2: Pixel): real
    requires p1.x != p2.x
  {
    (p2.y - p1.y) as real / (p2.x - p1.x) as real
  }

  /** The exact height after `s` unit steps in x along the slope. */
  function WalkY(p1: Pixel, p2: Pixel, s: int): real
    requires p1.x != p2.x
  {
    if p2.x > p1.x then p1.y as real + s as real * Slope(p1, p2)
    else p1.y as real - s as real * Slope(p1, p2)
  }

  /** The height reached after `s` unit steps in x (Geometry.py:292-306):
      along the slope, truncated by `int()`, or the start height on a
      horizontal edge, where the slope is 0 and therefore falsy. */
  function StepY(p1: Pixel, p2: Pixel, s: int): int
    requires p1.x != p2.x
  {
    if Slope(p1, p2) != 0.0 then Trunc(WalkY(p1, p2, s)) else p1.y
  }

  lemma SlopeZero(p1: Pixel, p2: Pixel)
    requires p1.x != p2.x
    ensures Slope(p1, p2) == 0.0 <==> p1.y == p2.y
  {
    var dy := (p2.y - p1.y) as real;
    var dx := (p2.x - p1.x) as real;
    if dy != 0.0 {
      DivNonZero(dy, dx);
    }
  }

  lemma DivNonZero(a: real, b: real)
    requires a != 0.0 && b != 0.0
    ensures a / b != 0.0
  {
    assert (a / b) * b == a;
  }

  lemma MulDivAssoc(s: real, a: real, b: real)
    requires b != 0.0
    ensures s * (a / b) == s * a / b
  {
  }

  lemma NegMulDiv(s: real, a: real, b: real, c: real)
    requires b != 0.0 && c == -b
    ensures -(s * (a / b)) == s * a / c
  {
    MulDivAssoc(s, a, b);
  }

  /** Both walk directions step along `Lerp` from `p1` toward `p2`. */
  lemma WalkIsLerp(p1: Pixel, p2: Pixel, s: int)
    requires p1.x != p2.x
    ensures p2.x > p1.x ==> WalkY(p1, p2, s) == Lerp(p1.y, p2.y, s, p2.x - p1.x)
    ensures p2.x < p1.x ==> WalkY(p1, p2, s) == Lerp(p1.y, p2.y, s, p1.x - p2.x)
  {
    var sr := s as real;
    var dy := (p2.y - p1.y) as real;
    var dx := (p2.x - p1.x) as real;
    MulDivAssoc(sr, dy, dx);
    NegMulDiv(sr, dy, dx, (p1.x - p2.x) as real);
  }

  lemma StepYIsLerp(p1: Pixel, p2: Pixel, s: int)
    requires p1.x != p2.x && p1.y != p2.y
    ensures p2.x > p1.x ==> StepY(p1, p2, s) == Trunc(Lerp(p1.y, p2.y, s, p2.x - p1.x))
    ensures p2.x < p1.x ==> StepY(p1, p2, s) == Trunc(Lerp(p1.y, p2.y, s, p1.x - p2.x))
  {
    SlopeZero(p1, p2);
    WalkIsLerp(p1, p2, s);
  }

  /** Each step of the x-walk lands between the heights of the edge's ends. */
  lemma StepBetween(p1: Pixel, p2: Pixel, s: int)
    requires p1.x != p2.x && 0 <= s < Abs(p2.x - p1.x)
    requires p1.y >= 0 && p2.y >= 0
    ensures Min(p1.y, p2.y) <= StepY(p1, p2, s) <= Max(p1.y, p2.y)
    ensures Min(p1.x, p2.x) <= StepX(p1, p2, s) <= Max(p1.x, p2.x)
  {
    if p1.y == p2.y {
      SlopeZero(p1, p2);
    } else if p2.x > p1.x {
      StepYIsLerp(p1, p2, s);
      TruncBetween(p1.y, p2.y, s, p2.x - p1.x);
    } else {
      StepYIsLerp(p1, p2, s);
      TruncBetween(p1.y, p2.y, s, p1.x - p2.x);
    }
  }

  /** The line walk's own test `abs(slope) > 1`: true exactly when the edge
      rises more than it runs, which numpy also yields for a vertical edge
      (an infinite slope) and not for a repeated point (a NaN slope). */
  predicate Steep(p1: Pixel, p2: Pixel)
  {
    Abs(p2.y - p1.y) > Abs(p2.x - p1.x)
  }

  function Abs(n: int): nat { if n < 0 then -n else n }

  /** The steep branch (Geometry.py:276-288): one pixel per unit step in y,
      each on its own row, at a column between the edge's ends. */
  function DotWrites(p1: Pixel, p2: Pixel, res: nat): (ws: seq<Write>)
    requires res > 0
    requires 0 <= p1.x < res && 0 <= p2.x < res && 0 <= p1.y <= res && 0 <= p2.y <= res
    ensures |ws| == Abs(p2.y - p1.y)
    ensures WritesFit(ws, res)
    ensures forall k :: 0 <= k < |ws| ==> ws[k].Dot? && Min(p1.x, p2.x) <= ws[k].col <= Max(p1.x, p2.x)
    ensures forall s, t :: 0 <= s < t < |ws| ==> ws[s].row != ws[t].row
  {
    var n := Abs(p2.y - p1.y);
    var ws := seq(n, s requires 0 <= s < n => Dot(RowOf(ScanY(p1, p2, s), res), ScanX(p1, p2, s)));
    assert forall s :: 0 <= s < n ==> Min(p1.x, p2.x) <= ws[s].col <= Max(p1.x, p2.x) by {
      forall s | 0 <= s < n
        ensures Min(p1.x, p2.x) <= ws[s].col <= Max(p1.x, p2.x)
      {
        ScanBetween(p1, p2, s);
      }
    }
    assert forall s, t :: 0 <= s < t < n ==> ws[s].row != ws[t].row by {
      forall s, t | 0 <= s < t < n
        ensures ws[s].row != ws[t].row
      {
        ScanBetween(p1, p2, s);
        ScanBetween(p1, p2, t);
        if ws[s].row == ws[t].row {
          RowOfCollision(ScanY(p1, p2, s), ScanY(p1, p2, t), res);
          assert false;
        }
      }
    }
    ws
  }

  /** The writes of one edge (Geometry.py:267-307). A steep edge sets one pixel
      per unit step in y; otherwise each unit step in x sets the slice
      `[x-1:x+1]` of its row. */
  function EdgeWrites(p1: Pixel, p2: Pixel, res: nat): (ws: seq<Write>)
    requires res > 0 && InWireGrid([p1, p2], res)
    ensures |ws| == if Steep(p1, p2) then Abs(p2.y - p1.y) else Abs(p2.x - p1.x)
    ensures WritesFit(ws, res)
    ensures Steep(p1, p2) ==> forall k :: 0 <= k < |ws| ==> ws[k].Dot? && Min(p1.x, p2.x) <= ws[k].col <= Max(p1.x, p2.x)
    ensures Steep(p1, p2) ==> forall s, t :: 0 <= s < t < |ws| ==> ws[s].row != ws[t].row
    ensures !Steep(p1, p2) ==> forall k :: 0 <= k < |ws| ==>
              ws[k].Span? && ws[k].hi == ws[k].lo + 2 && Min(p1.x, p2.x) <= ws[k].lo + 1 <= Max(p1.x, p2.x)
  {
    assert 0 <= p1.x < res && 0 <= p2.x < res && 0 <= p1.y <= res && 0 <= p2.y <= res by {
      assert [p1, p2][0] == p1 && [p1, p2][1] == p2;
    }
    if Steep(p1, p2) then DotWrites(p1, p2, res)
    else
      var n := Abs(p2.x - p1.x);
      assert forall s :: 0 <= s < n ==> 0 <= StepY(p1, p2, s) <= res by {
        forall s | 0 <= s < n
          ensures 0 <= StepY(p1, p2, s) <= res
        {
          StepBetween(p1, p2, s);
        }
      }
      seq(n, s requires 0 <= s < n => Span(RowOf(StepY(p1, p2, s), res), StepX(p1, p2, s) - 1, StepX(p1, p2, s) + 1))
  }

  /** The length of a path of pixels when each step costs the larger of its
      horizontal and vertical distances. */
  function Travel(ring: seq<Pixel>): nat
    decreases |ring|
  {
    if |ring| < 2 then 0
    else Max(Abs(ring[1].x - ring[0].x), Abs(ring[1].y - ring[0].y)) + Travel(ring[1..])
  }

  /** The writes of every edge of the closed ring, edge after edge
      (Geometry.py:267-307): one per unit of each edge's longer extent. */
  function WireWrites(ring: seq<Pixel>, res: nat): (ws: seq<Write>)
    requires res > 0 && InWireGrid(ring, res)
    ensures WritesFit(ws, res)
    ensures |ws| == Travel(ring)
    decreases |ring|
  {
    if |ring| < 2 then []
    else
      assert InWireGrid([ring[0], ring[1]], res);
      EdgeWrites(ring[0], ring[1], res) + WireWrites(ring[1..], res)
  }

  /** The columns a horizontal-ish step at column `x` sets: `x-1` and `x`,
      none at all at column 0 of a grid at least two wide (the slice is
      `[-1:1]`), and column `x-1` alone at column `R`. */
  lemma SpanColumns(x: int, res: nat, c: int)
    requires 0 <= x <= res && 0 <= c < res
    ensures 1 <= x < res ==> (Hits(Span(0, x - 1, x + 1), 0, c, res) <==> c == x - 1 || c == x)
    ensures x == 0 && res >= 2 ==> !Hits(Span(0, x - 1, x + 1), 0, c, res)
    ensures x == res ==> (Hits(Span(0, x - 1, x + 1), 0, c, res) <==> c == res - 1)
  {
  }

  /** `render_points_as_wires` (Geometry.py:233-309): normalise, then walk every
      edge, setting pixels of the supplied image or of a fresh blank one. */
  function RenderWires(pts: seq<Point>, bounds: (real, real), res: nat, canvas: Option<Image>): (img: Image)
    requires |pts| > 0 && res > 0 && bounds.1 > 0.0
    requires WithinWireBounds(pts, bounds.1)
    requires canvas.Some? ==> IsImage(canvas.value, res)
    ensures IsImage(img, res)
  {
    var base := match canvas case None => Blank(res) case Some(i) => i;
    ApplyWrites(base, WireWrites(Normalise(pts, bounds, res), res), res)
  }

  /** Drawing onto a supplied image never clears a pixel, and yields that image
      OR the wireframe drawn on a fresh one. */
  lemma WiresOverlay(pts: seq<Point>, bounds: (real, real), res: nat, canvas: Image)
    requires |pts| > 0 && res > 0 && bounds.1 > 0.0
    requires WithinWireBounds(pts, bounds.1)
    requires IsImage(canvas, res)
    ensures forall r, c :: 0 <= r < res && 0 <= c < res && canvas[r][c] ==> RenderWires(pts, bounds, res, Some(canvas))[r][c]
    ensures RenderWires(pts, bounds, res, Some(canvas)) == Or(canvas, RenderWires(pts, bounds, res, None), res)
  {
    var ws := WireWrites(Normalise(pts, bounds, res), res);
    var drawn := RenderWires(pts, bounds, res, Some(canvas));
    var alone := RenderWires(pts, bounds, res, None);
    var both := Or(canvas, alone, res);
    forall r, c | 0 <= r < res && 0 <= c < res
      ensures drawn[r][c] == both[r][c]
    {
      WritesSetOnly(canvas, ws, res, r, c);
      WritesSetOnly(Blank(res), ws, res, r, c);
    }
    forall r | 0 <= r < res
      ensures drawn[r] == both[r]
    {
    }
  }
}
